=== FILE: README.md ===
# webpic, modelled in Dafny

`webpic` is a command-line tool that turns input photographs into
responsive-image artifacts. Each input file goes through the same steps:

- Its Exif orientation is resolved, and the image is decoded and turned
  upright.
- For every requested width and every pixel density 1..dpr, the image is
  resized and encoded: JPEG and WEBP for photographic inputs (`.jpg`,
  `.heic`), PNG for flat-colour inputs (`.png`).
- The files are written to `{width}w{density}d.{ext}`.
- A `<picture>` element listing them is printed.

This project models the deterministic core of that tool, all of it in
`webpic.go`:

- `getWidths`
- the invocation checks of `main`
- `generate`
- `getImage`
- `getOrientation`
- `transformAccordingly`
- `resizeAccordingly`
- `writeImages`
- `printHTML`

It then proves properties of the model.

Modules, one per component:

| module | models |
|---|---|
| `Wrappers` | `Option`, `Result`, `Outcome` |
| `Decimal` | Go's 64-bit `int`, `uint(x)`, `%d` and `strconv.Atoi` |
| `Widths` | `strings.Split` and `getWidths` |
| `Orientation` | the Exif tag walk of `getOrientation` |
| `Raster` | a pixel grid and the four imaging operations `transformAccordingly` composes (`FlipH`, `Rotate90`, `Rotate180`, `Rotate270`), each defined by the pixel it copies to each position |
| `Transform` | `transformAccordingly`, and the meaning of the Exif orientation codes (CIPA DC-008, section 4.6.4) |
| `Artifacts` | `resizeAccordingly` and the file plan of `writeImages` |
| `Markup` | `printHTML`: the element structure and the template's text |
| `Pipeline` | the invocation checks, `getImage` and `generate` |

Foreign collaborators become parameters:

- The decoders are a parameter `decoded: Option<Image<P>>`: the image, or `None` when opening or decoding fails.
- The Exif parser is `exif: Option<seq<TagEntry>>`: the tags in enumeration order, or `None` when no block can be collected.
- The file system and encoders are `FileSystem(mkdirOk, canWrite)`. `canWrite` is the verdict on creating and encoding the file at each path.
- Pixels are an uninterpreted type `P`.

## Model

| member | source | states |
|---|---|---|
| `Decimal.WrapInt64` | webpic.go:268 | the product `width*i` as Go's 64-bit `int` holds it: congruent to the true product modulo 2^64, and equal to it when it fits |
| `Decimal.ToUint` | webpic.go:214-215 | `uint(width)`: the same 64 bits read unsigned; non-negative widths are unchanged |
| `Decimal.ToUintInjective` | webpic.go:214-215 | two widths have the same `uint` value exactly when they are equal |
| `Decimal.NatToString` | webpic.go:200 | `%d` of a non-negative number is a non-empty digit string whose decimal value is the number, with no leading zero unless the number is 0 |
| `Decimal.IntToString` | webpic.go:200 | `%d` of any `int` is non-empty and made only of digits and `-` |
| `Decimal.IntToStringCanonical` | webpic.go:200 | `%d` text is canonical: a minus sign exactly for negative numbers, then the digits of the magnitude with no leading zero, so `0288` and `-0` are never printed |
| `Decimal.Atoi` | webpic.go:92 | `strconv.Atoi`: a result exactly for an optional sign followed by at least one digit whose signed value fits in 64 bits, and then that value (`0288` and `+288` give 288) |
| `Decimal.AtoiIntToString` | webpic.go:92 | parsing what `%d` printed gives every 64-bit `int` back |
| `Decimal.IntToStringInjective` | webpic.go:200 | two `int`s print the same exactly when they are equal |
| `Widths.Split` | webpic.go:89 | `strings.Split` on one character: one piece more than separators, no piece contains it, and joining the pieces gives the input back |
| `Widths.SplitJoin` | webpic.go:89 | splitting joined separator-free parts returns exactly those parts |
| `Widths.FillSlots` | webpic.go:91-98 | the loop stores each parsed token at its own index, leaves unparsable tokens' slots as they were and keeps the length |
| `Widths.GetWidths` | webpic.go:88-100 | one slot per comma-separated token, in order; the parsed value where the token parses, 0 where it does not |
| `Widths.GetWidthsFormatWidths` | webpic.go:88-100 | a width list printed with `%d` and commas parses back to the same list |
| `Widths.UnparsableTokenLeavesZero` | webpic.go:91-98 | the list `288,abc,576` yields `[288, 0, 576]`: the bad token's slot stays 0 |
| `Widths.UnparsableBetweenWidths` | webpic.go:91-98 | for any two widths, their printed text around a non-integer token yields the first width, 0, then the second |
| `Widths.WidthListText` | webpic.go:200 | `%d` prints 288 and 576 as `288` and `576` |
| `Orientation.Walk` | webpic.go:374-397 | the callback fold over the tag entries: a successful walk ends with its starting value or with the value of some well-formed Orientation entry |
| `Orientation.GetOrientation` | webpic.go:359-401 | every error comes with code 1; a missing Exif block is an error |
| `Orientation.WalkNoOrientation` | webpic.go:373-397 | a walk over entries without an Orientation tag keeps the value it started with |
| `Orientation.WalkLastWins` | webpic.go:375-392 | with only well-formed Orientation entries, the walk ends with the value of the last one |
| `Orientation.WalkFails` | webpic.go:375-397 | the walk fails exactly when some Orientation entry is unreadable, a list of length other than one, or of another type |
| `Orientation.NoTagGivesOne` | webpic.go:373-401 | an Exif block without an Orientation tag resolves to code 1 with no error |
| `Orientation.LastTagWins` | webpic.go:375-401 | when all Orientation entries are well formed, the last one decides the code |
| `Orientation.MalformedTagFails` | webpic.go:375-401 | resolution reports an error exactly when some Orientation entry is malformed, and the code is then 1 |
| `Raster.FlipH` | webpic.go:283 | mirror left-right: same size, pixel (x, y) comes from (w-1-x, y), the result is NRGBA |
| `Raster.Rotate180` | webpic.go:286 | half turn: same size, pixel (x, y) comes from (w-1-x, h-1-y) |
| `Raster.Rotate90` | webpic.go:307 | quarter turn counter-clockwise: sizes swap, pixel (x, y) comes from (w-1-y, x) |
| `Raster.Rotate270` | webpic.go:299 | quarter turn clockwise: sizes swap, pixel (x, y) comes from (y, h-1-x) |
| `Transform.TransformAccordingly` | webpic.go:273-315 | success exactly for codes 2..8, or 1 on an NRGBA image; a non-NRGBA image under 1 and every other code give their errors; size kept for codes up to 4 and swapped from 5 |
| `Transform.Recorded` | webpic.go:273-315 | the grid a camera stores for an upright scene under each Exif code, built from the standard's row-0/column-0 table |
| `Transform.TransformRestoresScene` | webpic.go:273-315 | for every code 1..8, transforming what a camera stored gives back the upright scene |
| `Transform.UndoCode1` | webpic.go:275-277 | code 1 passes an NRGBA image through unchanged |
| `Transform.UndoCode2` | webpic.go:281-283 | mirroring undoes code 2 |
| `Transform.UndoCode3` | webpic.go:284-286 | a half turn undoes code 3 |
| `Transform.UndoCode4` | webpic.go:287-291 | a half turn then a mirror undoes code 4 |
| `Transform.Code4LeavesMirror` | webpic.go:290 | the half turn of a code-4 grid is the scene mirrored |
| `Transform.UndoCode5` | webpic.go:292-296 | a clockwise quarter turn then a mirror undoes code 5 |
| `Transform.Code5LeavesMirror` | webpic.go:295 | the clockwise quarter turn of a code-5 grid is the scene mirrored |
| `Transform.UndoCode6` | webpic.go:297-299 | a clockwise quarter turn undoes code 6 |
| `Transform.UndoCode7` | webpic.go:300-304 | a counter-clockwise quarter turn then a mirror undoes code 7 |
| `Transform.Code7LeavesMirror` | webpic.go:303 | the counter-clockwise quarter turn of a code-7 grid is the scene mirrored |
| `Transform.UndoCode8` | webpic.go:305-307 | a counter-clockwise quarter turn undoes code 8 |
| `Transform.FlipHTwice` | webpic.go:291 | mirroring twice restores the picture |
| `Artifacts.ResizeAccordingly` | webpic.go:265-271 | one variant per density 1..dpr, in order, each the same upright image resized to `width*i` as a 64-bit `int` |
| `Artifacts.NameReadsBack` | webpic.go:200-201 | a file name begins with the width's `%d` text, which parses back to the width, and ends with `.` and the codec's extension |
| `Artifacts.NameInjective` | webpic.go:200-201 | file names `{width}w{density}d.{ext}` of different width, density or codec never coincide |
| `Artifacts.Lower` | webpic.go:194 | `strings.ToLower` on ASCII: same length, each letter `A`-`Z` lowered and every other character kept |
| `Artifacts.FamilyOf` | webpic.go:195-230 | the switch on the file type: a family exactly for `jpg`, `heic` and `png`, photographic exactly for `jpg` and `heic` |
| `Artifacts.FamilyOfExtensions` | webpic.go:194-196 | the dispatch ignores case but not spelling: `JPG` is photographic, `jpeg` is unknown |
| `Artifacts.WritePlan` | webpic.go:199-226 | two files per density for a photographic input, one for a flat-colour input |
| `Artifacts.PlanEntry` | webpic.go:199-226 | the JPEG of density k+1 is written at 2k and its WEBP at 2k+1, or its PNG at k, each from the image resized for that density |
| `Artifacts.FirstFailure` | webpic.go:202-224 | the first file that cannot be written; every file before it can be |
| `Artifacts.GroupsFor` | webpic.go:206-227 | one group per codec in result order (WEBP, JPEG or PNG), each with the `uint` width and one entry per density at index density-1 |
| `Artifacts.WriteImages` | webpic.go:185-232 | mkdir failure and unknown type as errors, and a failing write reported as the path of the first file of the plan that cannot be written; success exactly when the directory is made, the type is known and every planned file is written; WEBP before JPEG in the result |
| `Artifacts.WriteErrorIsFirstFailure` | webpic.go:199-224 | a write error names the first file of the plan that could not be written, all earlier files having been written |
| `Artifacts.EveryEntryWasWritten` | webpic.go:199-227 | every entry of a returned group names a file the plan wrote, from the image of that density |
| `Artifacts.PlanCoversGroups` | webpic.go:199-227 | each group entry corresponds to a position of the plan |
| `Markup.ScanBack` | webpic.go:145-151 | the backward scan stops at the start of the run of groups sharing the last width |
| `Markup.LastWidthIndex` | webpic.go:142-151 | `lastWidthIndex` is where the final same-width run begins: all groups from it on share the last width, the one before it does not |
| `Markup.PrintHTML` | webpic.go:141-160 | one `<source>` per group but the last, in order, with its type and srcset (each file's URL, no descriptor for density 1 and `Nx` with the file's density otherwise); `media` exactly when some later group's width differs; `<img>` width from the last group |
| `Markup.FallbackIsLastGroup` | webpic.go:157 | the `<img>` takes `src` from the last group's first file and lists exactly the further files, in order, each with its `Nx` descriptor |
| `Markup.Render` | webpic.go:152-161 | the printed text is framed by `<picture>` and `</picture>` |
| `Markup.SinglePngPicture` | webpic.go:152-160 | one flat-colour width at density 1 prints no `<source>` and an `<img>` without `srcset` |
| `Pipeline.ValidateInvocation` | webpic.go:55-70 | a run proceeds exactly with at least one file, quality in 1..100 and dpr at least 1; the checks are made in that order, so a bad dpr is reported only with at least one file and a valid quality, and is then reported as itself |
| `Pipeline.GetImage` | webpic.go:317-330 | exactly `jpg`, `png` and `heic` (any case) reach a decoder; the decoder's image is returned; any other type is reported lower-cased; a decoder failure on an accepted type is a codec error |
| `Pipeline.PrepareImage` | webpic.go:111-124 | a file is prepared exactly when its type is accepted, it decodes and its image transforms under the resolved code (1 when unresolved), giving that transformed grid; an unknown type is reported before anything else, a decoder failure as a codec error, and a transform failure with the transform's own error |
| `Pipeline.WidthGroups` | webpic.go:126-127 | one or two groups per written width |
| `Pipeline.CollectAppend` | webpic.go:132 | appending one more written width's groups extends the collection by exactly those groups, in width order |
| `Pipeline.CollectOrigin` | webpic.go:132 | every collected group is one of the groups some width's `writeImages` returned |
| `Pipeline.WriteWidths` | webpic.go:125-133 | widths are written in order: all groups collected when every width is written, otherwise the first failing width is reported after exactly that many attempts |
| `Pipeline.Generate` | webpic.go:107-139 | a decode or transform failure ends the file before any width; markup exactly when every width is written, built from all groups in width order; otherwise the first failing width is reported |
| `Pipeline.OrientationErrorIsNotFatal` | webpic.go:111-114 | an unresolvable orientation does not stop the file: an NRGBA image goes on unchanged |
| `Pipeline.UprightNonNrgbaFails` | webpic.go:120-124 | under code 1, including a file without Exif data, an image that is not NRGBA fails to transform |
| `Pipeline.PreparedHasFamily` | webpic.go:194-229 | a file `getImage` accepts always has a known family, so `writeImages` never reports an unknown type for it |
| `Pipeline.WrittenWidth` | webpic.go:125-133 | a written width yields exactly its family's groups |
| `Pipeline.CollectPairs` | webpic.go:131 | collecting two groups per width puts width k's groups at 2k and 2k+1 |
| `Pipeline.CollectSingles` | webpic.go:131 | collecting one group per width puts width k's group at k |
| `Pipeline.PhotographicLayout` | webpic.go:125-133 | a photographic file's collected groups: WEBP at 2k and JPEG at 2k+1, for width k at every density |
| `Pipeline.FlatColorLayout` | webpic.go:125-133 | a flat-colour file's collected groups: PNG at k, for width k at every density |
| `Pipeline.PhotographicPaired` | webpic.go:125-133 | the photographic layout pairs WEBP and JPEG by width and ends with the last width's density-1 JPEG file |
| `Pipeline.PairWidth` | webpic.go:214-215 | in the paired layout, group j is for width j/2 |
| `Pipeline.PairedMedia` | webpic.go:142-155 | in the paired layout, a `<source>` has the breakpoint attribute exactly when some width from its own on differs from the last width |
| `Pipeline.PairedBreakpoints` | webpic.go:142-155 | the same, for every `<source>` at once |
| `Pipeline.PairedPicture` | webpic.go:141-157 | the paired layout prints 2n-1 sources alternating WEBP and JPEG, and the `<img>` is the last width's JPEG group |

## Left out

- The flags, their defaults and `usage()`. `getWidths` runs before the
  file-count check, so the width list is modelled as given. Its length is at
  least one, because `strings.Split` never returns an empty list. This is why
  `Generate` requires at least one width.
- The goroutine per file, the `WaitGroup` and the output mutex. Each file's
  pipeline is modelled on its own. Files also share the file system: inputs
  with the same name stem (`photo.jpg` and `photo.heic`, or one file listed
  twice) write the same paths concurrently, and that interaction is not
  modelled.
- The progress lines and error messages printed to stdout/stderr. Errors are
  modelled as values.
- Pixel codecs, Lanczos resampling and the resized height. A resized image is
  known by its source and the target width it was requested at.
- The pixel conversion done by `FlipH` and the `Rotate` operations: they
  produce 8-bit NRGBA pixels, so a YCbCr JPEG pixel becomes RGB and a 16-bit
  PNG pixel loses its low byte. The model treats pixel values as unchanged by
  these operations, so `Transform.FlipHTwice` and
  `Transform.TransformRestoresScene` hold exactly only at that abstraction.
- The Exif byte format and IFD traversal, which belong to a foreign parser.
- The `ToLower` of Unicode letters: `Lower` folds only ASCII `A`-`Z`.
- `filepath.Ext`, `Base`, `TrimSuffix` and the cleaning done by
  `filepath.Join`. The input name is given already split as `SourceFile`, and
  paths are sequences of segments. `Markup.Render` joins URL segments with
  `/` and does not clean them, so a prefix ending in `/` (the default `/`)
  prints a doubled slash where Go prints one. `filepath.Join` also drops
  empty elements: an empty prefix gives `photo/288w1d.jpg` in Go, while
  `RenderUrl` gives `/photo/288w1d.jpg`.
- The template engine and its `Parse`/`Execute` errors. Only the element
  structure, and its text via `Render`, are modelled.
- `Generate` takes the settings as `Config` instead of global flags. Quality
  is only handed to the encoders, so it does not appear in any contract past
  validation.
- For an out-of-range orientation on an NRGBA image, `transformAccordingly`
  also returns the image beside the error. `generate` discards it, and the
  model returns only the error.
- `Markup.Render`: it states only the framing of the printed text. The
  element structure it prints is what `PrintHTML` states.
- `PrintHTML`: its domain is non-empty lists. Go indexes the list at -1 and
  panics on an empty one, which cannot happen after a successful `generate`.

Behaviour of the code worth knowing:

- A non-integer width token is reported but leaves a 0 in its slot. It is not
  removed: `288,abc,576` gives `[288, 0, 576]`.
- An orientation that cannot be resolved is reported, and the file goes on
  with code 1. It is not aborted.
- Duplicate or non-positive widths are not rejected. They are resized and
  written like any other; a negative width wraps in `uint(width)`.
- The `<img>` is the last group in the order the widths were given. That is
  the largest width only if the widths are sorted.
- The breakpoint attribute is the literal `media="(min-width: )"`, with no
  value.
- `jpeg` is not an accepted extension; only `jpg` is.
- Code 1 is the code of every file without an Exif block or Orientation tag.
  A decoder that does not produce an NRGBA image therefore fails those files
  with a transform error.

=== FILE: artifacts.dfy ===
/** The variant matrix and the artifact plan: `resizeAccordingly`
    (webpic.go:265-271) and `writeImages` (webpic.go:185-232). Pixels are not
    modelled: a resized image is known by the width it was requested at, and
    the encoders and the file system are a foreign collaborator that either
    accepts or refuses to create a given file. */
module Artifacts {
  import opened Wrappers
  import opened Decimal
  import opened Raster

  /** The input file's name, as `writeImages` takes it apart: `dirName` is
      the path without its extension (the output directory), `baseDir` its
      last element (the directory part of every URL), and `ext` the text
      after the last dot. */
  datatype SourceFile = SourceFile(dirName: string, baseDir: string, ext: string)

  datatype Codec = Webp | Jpeg | Png

  /** The group's `FileType`, used as the MIME subtype in the markup. */
  function FileType(c: Codec): string {
    match c
    case Webp => "webp"
    case Jpeg => "jpeg"
    case Png => "png"
  }

  /** The extension of the files written for a codec; JPEG files end in `.jpg`. */
  function FileExt(c: Codec): string {
    match c
    case Webp => "webp"
    case Jpeg => "jpg"
    case Png => "png"
  }

  /** One `filePath`: a density and the URL path, as segments joined by `/`. */
  datatype FilePath = FilePath(dpr: Uint64, url: seq<string>)

  /** One `imageFilePath`: the files of one codec at one requested width,
      one per density. */
  datatype Group = Group(codec: Codec, width: Uint64, filePaths: seq<FilePath>)

  /** `imaging.Resize(source, targetWidth, 0, imaging.Lanczos)`: the pixels
      and the height (which follows the aspect ratio) are the library's
      business; the model keeps what was resized and to which width. */
  datatype Variant<P> = Variant(source: Image<P>, targetWidth: Int64)

  /** `resizeAccordingly`: for density i = 1..dpr the image resized to
      `width * i` pixels, multiplied as Go multiplies `int`s. */
  function ResizeAccordingly<P>(img: Image<P>, width: Int64, dpr: Int64): (imgs: seq<Variant<P>>)
    ensures |imgs| == if dpr < 0 then 0 else dpr
    ensures forall k :: 0 <= k < |imgs| ==> imgs[k] == Variant(img, WrapInt64(width * (k + 1)))
    ensures forall k :: 0 <= k < |imgs| && MinInt64 <= width * (k + 1) <= MaxInt64 ==>
              imgs[k].targetWidth == width * (k + 1)
    decreases if dpr < 0 then 0 else dpr
  {
    if dpr <= 0 then []
    else
      var previous := ResizeAccordingly(img, width, dpr - 1);
      var imgs := previous + [Variant(img, WrapInt64(width * dpr))];
      assert forall k :: 0 <= k < dpr - 1 ==> imgs[k] == previous[k];
      imgs
  }

  /** `%dw%dd`: the file stem for a width and a density. */
  function Stem(width: Int64, density: Int64): string {
    IntToString(width) + "w" + IntToString(density) + "d"
  }

  /** The file name of one artifact: `{width}w{density}d.{ext}`. */
  function Name(width: Int64, density: Int64, c: Codec): string {
    Stem(width, density) + "." + FileExt(c)
  }

  /** A name starts with the width's `%d` text, which parses back to the
      width, and ends with the codec's extension. */
  lemma NameReadsBack(width: Int64, density: Int64, c: Codec)
    ensures var name := Name(width, density, c);
            && |IntToString(width)| < |name|
            && Atoi(name[..|IntToString(width)|]) == Some(width)
            && name[|name| - |FileExt(c)| - 1..] == "." + FileExt(c)
  {
    var head, ext := IntToString(width), "." + FileExt(c);
    var name := Name(width, density, c);
    assert name == head + ("w" + IntToString(density) + "d") + ext;
    assert name[..|head|] == head;
    assert name[|name| - |ext|..] == ext;
    AtoiIntToString(width);
  }

  /** If `a + [c] + b == a' + [c] + b'` and neither `a` nor `a'` contains `c`,
      both sides were cut at the same place. */
  lemma CutAtFirst(a: string, b: string, a': string, b': string, c: char)
    requires c !in a && c !in a'
    requires a + [c] + b == a' + [c] + b'
    ensures a == a' && b == b'
  {
    var s := a + [c] + b;
    assert forall i :: 0 <= i < |a| ==> s[i] == a[i] != c;
    assert forall i :: 0 <= i < |a'| ==> s[i] == a'[i] != c;
    assert s[|a|] == c && s[|a'|] == c;
    assert |a| == |a'|;
    assert a == s[..|a|] == a';
    assert b == s[|a| + 1..] == b';
  }

  /** Artifact names are collision-free: each name determines its width,
      density and codec. */
  lemma NameInjective(w1: Int64, d1: Int64, c1: Codec, w2: Int64, d2: Int64, c2: Codec)
    requires Name(w1, d1, c1) == Name(w2, d2, c2)
    ensures w1 == w2 && d1 == d2 && c1 == c2
  {
    var ext1, ext2 := "." + FileExt(c1), "." + FileExt(c2);
    var tail1, tail2 := IntToString(d1) + ['d'] + ext1, IntToString(d2) + ['d'] + ext2;
    NameParts(w1, d1, c1);
    NameParts(w2, d2, c2);
    IntToStringHasNo(w1, 'w');
    IntToStringHasNo(w2, 'w');
    CutAtFirst(IntToString(w1), tail1, IntToString(w2), tail2, 'w');
    IntToStringHasNo(d1, 'd');
    IntToStringHasNo(d2, 'd');
    CutAtFirst(IntToString(d1), ext1, IntToString(d2), ext2, 'd');
    IntToStringInjective(w1, w2);
    IntToStringInjective(d1, d2);
    assert FileExt(c1) == ext1[1..] == ext2[1..] == FileExt(c2);
  }

  lemma NameParts(w: Int64, d: Int64, c: Codec)
    ensures Name(w, d, c) == IntToString(w) + ['w'] + (IntToString(d) + ['d'] + ("." + FileExt(c)))
  {
  }

  function LowerChar(c: char): char {
    if 'A' <= c <= 'Z' then (c as int + 32) as char else c
  }

  /** `strings.ToLower`, on ASCII letters. */
  function Lower(s: string): (r: string)
    ensures |r| == |s| && forall i :: 0 <= i < |s| ==> r[i] == LowerChar(s[i])
  {
    seq(|s|, i requires 0 <= i < |s| => LowerChar(s[i]))
  }

  /** The two input families `writeImages` knows. */
  datatype Family = Photographic | FlatColor

  /** The switch on the lower-cased extension. */
  function FamilyOf(fileType: string): (r: Option<Family>)
    ensures r.Some? <==> fileType in {"jpg", "heic", "png"}
    ensures r == Some(Photographic) <==> fileType in {"jpg", "heic"}
  {
    if fileType == "jpg" || fileType == "heic" then Some(Photographic)
    else if fileType == "png" then Some(FlatColor)
    else None
  }

  /** The groups' order in the result. */
  function GroupOrder(f: Family): seq<Codec> {
    match f
    case Photographic => [Webp, Jpeg]
    case FlatColor => [Png]
  }

  /** One file the loop creates and encodes, as path segments on disk. */
  datatype Write<P> = Write(disk: seq<string>, codec: Codec, image: Variant<P>)

  /** The file system and encoders, as far as the plan sees them: whether
      `os.MkdirAll` succeeds, and whether creating and encoding the file at a
      disk path succeeds. The file system is modelled as stateless: a path
      always gets the same verdict, even when it is written a second time. */
  datatype FileSystem = FileSystem(mkdirOk: bool, canWrite: seq<string> -> bool)

  datatype WriteError =
    | MkdirFailed
    | UnknownFileType(fileType: string)
    | WriteFailed(disk: seq<string>)

  /** The files written for density d, in the order the loop writes them:
      JPEG before WEBP for a photographic input. */
  function DensityWrites<P>(src: SourceFile, width: Int64, d: Int64, f: Family, image: Variant<P>): seq<Write<P>> {
    match f
    case Photographic =>
      [Write([src.dirName, Name(width, d, Jpeg)], Jpeg, image), Write([src.dirName, Name(width, d, Webp)], Webp, image)]
    case FlatColor => [Write([src.dirName, Name(width, d, Png)], Png, image)]
  }

  /** The files the loop of `writeImages` attempts for densities 1..n, in
      order: density by density, each density's files as `DensityWrites`
      lists them. */
  function WritePlan<P>(src: SourceFile, width: Int64, n: Int64, f: Family, imgs: seq<Variant<P>>): (plan: seq<Write<P>>)
    requires 0 <= n <= |imgs|
    ensures f == Photographic ==> |plan| == 2 * n
    ensures f == FlatColor ==> |plan| == n
  {
    if n == 0 then []
    else WritePlan(src, width, n - 1, f, imgs) + DensityWrites(src, width, n, f, imgs[n - 1])
  }

  /** Which file the plan writes at each position: for a photographic input
      the JPEG of density k+1 at 2k and its WEBP at 2k+1, for a flat-colour
      input the PNG of density k+1 at k, each from the image resized for
      that density. */
  lemma {:induction false} PlanEntry<P>(src: SourceFile, width: Int64, n: Int64, f: Family,
                                        imgs: seq<Variant<P>>, k: nat)
    requires 0 <= n <= |imgs| && k < n
    ensures var plan := WritePlan(src, width, n, f, imgs);
            && (f == Photographic ==>
                  && plan[2 * k] == Write([src.dirName, Name(width, k + 1, Jpeg)], Jpeg, imgs[k])
                  && plan[2 * k + 1] == Write([src.dirName, Name(width, k + 1, Webp)], Webp, imgs[k]))
            && (f == FlatColor ==> plan[k] == Write([src.dirName, Name(width, k + 1, Png)], Png, imgs[k]))
  {
    var previous := WritePlan(src, width, n - 1, f, imgs);
    var plan := WritePlan(src, width, n, f, imgs);
    assert plan == previous + DensityWrites(src, width, n, f, imgs[n - 1]);
    if k < n - 1 {
      PlanEntry(src, width, n - 1, f, imgs, k);
      if f == Photographic {
        assert plan[2 * k] == previous[2 * k] && plan[2 * k + 1] == previous[2 * k + 1];
      } else {
        assert plan[k] == previous[k];
      }
    }
  }

  /** The index of the first write that fails, if any. */
  function FirstFailure<P>(plan: seq<Write<P>>, fs: FileSystem): (r: Option<nat>)
    ensures r.None? <==> forall k :: 0 <= k < |plan| ==> fs.canWrite(plan[k].disk)
    ensures r.Some? ==> r.value < |plan| && !fs.canWrite(plan[r.value].disk)
    ensures r.Some? ==> forall k :: 0 <= k < r.value ==> fs.canWrite(plan[k].disk)
  {
    if plan == [] then None
    else if !fs.canWrite(plan[0].disk) then Some(0)
    else
      match FirstFailure(plan[1..], fs)
      case None => None
      case Some(k) => Some(k + 1)
  }

  /** The `filePath` entries of one group: density k+1 at index k. */
  function Entries(pre: string, src: SourceFile, width: Int64, dpr: Int64, c: Codec): seq<FilePath>
    requires dpr >= 1
  {
    seq(dpr, k requires 0 <= k < dpr => FilePath(k + 1, [pre, src.baseDir, Name(width, k + 1, c)]))
  }

  /** What every group of `writeImages` looks like: the requested width as
      `uint`, and for each density d = 1..dpr exactly one entry, at index
      d-1, whose URL is `pre/baseDir/{width}w{d}d.{ext}`. */
  ghost predicate WellFormedGroup(g: Group, pre: string, src: SourceFile, width: Int64, dpr: Int64) {
    && g.width == ToUint(width)
    && |g.filePaths| == dpr
    && forall k :: 0 <= k < |g.filePaths| ==>
         g.filePaths[k] == FilePath(k + 1, [pre, src.baseDir, Name(width, k + 1, g.codec)])
  }

  /** The groups `writeImages` returns once every file is written: one per
      codec of the family, in `GroupOrder`. */
  function GroupsFor(pre: string, src: SourceFile, width: Int64, dpr: Int64, f: Family): (groups: seq<Group>)
    requires dpr >= 1
    ensures |groups| == |GroupOrder(f)|
    ensures forall i :: 0 <= i < |groups| ==>
              groups[i].codec == GroupOrder(f)[i] && WellFormedGroup(groups[i], pre, src, width, dpr)
  {
    var order := GroupOrder(f);
    seq(|order|, i requires 0 <= i < |order| =>
      Group(order[i], ToUint(width), Entries(pre, src, width, dpr, order[i])))
  }

  /** Every file of the plan can be written. */
  ghost predicate AllWritable<P>(plan: seq<Write<P>>, fs: FileSystem) {
    forall k :: 0 <= k < |plan| ==> fs.canWrite(plan[k].disk)
  }

  /** `writeImages` for one requested width. `imgs` must hold at least `dpr`
      images, since the loop reads `imgs[i-1]` for i = 1..dpr. */
  function WriteImages<P>(pre: string, src: SourceFile, dpr: Int64, width: Int64,
                       imgs: seq<Variant<P>>, fs: FileSystem): (r: Result<seq<Group>, WriteError>)
    requires 1 <= dpr <= |imgs|
    ensures !fs.mkdirOk ==> r == Failure(MkdirFailed)
    ensures fs.mkdirOk && FamilyOf(Lower(src.ext)).None? ==>
              r == Failure(UnknownFileType(Lower(src.ext)))
    ensures fs.mkdirOk && FamilyOf(Lower(src.ext)).Some? ==>
              var plan := WritePlan(src, width, dpr, FamilyOf(Lower(src.ext)).value, imgs);
              FirstFailure(plan, fs).Some? ==> r == Failure(WriteFailed(plan[FirstFailure(plan, fs).value].disk))
    ensures r.Success? <==>
              && fs.mkdirOk
              && FamilyOf(Lower(src.ext)).Some?
              && AllWritable(WritePlan(src, width, dpr, FamilyOf(Lower(src.ext)).value, imgs), fs)
    ensures r.Success? && FamilyOf(Lower(src.ext)) == Some(Photographic) ==>
              |r.value| == 2 && r.value[0].codec == Webp && r.value[1].codec == Jpeg
    ensures r.Success? && FamilyOf(Lower(src.ext)) == Some(FlatColor) ==>
              |r.value| == 1 && r.value[0].codec == Png
    ensures r.Success? ==> forall i :: 0 <= i < |r.value| ==> WellFormedGroup(r.value[i], pre, src, width, dpr)
  {
    if !fs.mkdirOk then Failure(MkdirFailed)
    else
      var fileType := Lower(src.ext);
      match FamilyOf(fileType)
      case None => Failure(UnknownFileType(fileType))
      case Some(f) =>
        var plan := WritePlan(src, width, dpr, f, imgs);
        match FirstFailure(plan, fs)
        case Some(k) => Failure(WriteFailed(plan[k].disk))
        case None => Success(GroupsFor(pre, src, width, dpr, f))
  }

  /** The dispatch ignores case but not spelling: `JPG` is photographic,
      `jpeg` is not known. */
  lemma FamilyOfExtensions()
    ensures FamilyOf(Lower("JPG")) == Some(Photographic) && FamilyOf(Lower("jpeg")).None?
  {
    assert Lower("JPG") == "jpg";
    assert Lower("jpeg") == "jpeg";
  }

  /** A failing write stops the loop: the error names the file at index `k`
      of the plan, the first that could not be written; every file before it
      was written. */
  lemma WriteErrorIsFirstFailure<P>(pre: string, src: SourceFile, dpr: Int64, width: Int64,
                                 imgs: seq<Variant<P>>, fs: FileSystem) returns (k: nat)
    requires 1 <= dpr <= |imgs|
    requires WriteImages(pre, src, dpr, width, imgs, fs).Failure?
    requires WriteImages(pre, src, dpr, width, imgs, fs).error.WriteFailed?
    ensures fs.mkdirOk && FamilyOf(Lower(src.ext)).Some?
    ensures var plan := WritePlan(src, width, dpr, FamilyOf(Lower(src.ext)).value, imgs);
            && k < |plan|
            && plan[k].disk == WriteImages(pre, src, dpr, width, imgs, fs).error.disk
            && !fs.canWrite(plan[k].disk)
            && forall j :: 0 <= j < k ==> fs.canWrite(plan[j].disk)
  {
    var f := FamilyOf(Lower(src.ext)).value;
    var plan := WritePlan(src, width, dpr, f, imgs);
    k := FirstFailure(plan, fs).value;
  }

  /** The markup only names files that were written: on success, entry `k`
      of group `i` is the file `dirName/{width}w{k+1}d.{ext}` that write `n`
      of the plan created, from the image resized for density k+1. */
  lemma EveryEntryWasWritten<P>(pre: string, src: SourceFile, dpr: Int64, width: Int64,
                             imgs: seq<Variant<P>>, fs: FileSystem, i: nat, k: nat) returns (n: nat)
    requires 1 <= dpr <= |imgs|
    requires WriteImages(pre, src, dpr, width, imgs, fs).Success?
    requires i < |WriteImages(pre, src, dpr, width, imgs, fs).value|
    requires k < |WriteImages(pre, src, dpr, width, imgs, fs).value[i].filePaths|
    ensures var g := WriteImages(pre, src, dpr, width, imgs, fs).value[i];
            var plan := WritePlan(src, width, dpr, FamilyOf(Lower(src.ext)).value, imgs);
            && n < |plan|
            && plan[n] == Write([src.dirName, g.filePaths[k].url[2]], g.codec, imgs[k])
            && fs.canWrite(plan[n].disk)
  {
    var f := FamilyOf(Lower(src.ext)).value;
    var plan := WritePlan(src, width, dpr, f, imgs);
    assert WriteImages(pre, src, dpr, width, imgs, fs).value == GroupsFor(pre, src, width, dpr, f);
    n := PlanCoversGroups(pre, src, width, dpr, f, imgs, i, k);
    assert AllWritable(plan, fs);
  }

  /** Entry `k` of group `i` names the file that write `n` of the plan creates. */
  lemma PlanCoversGroups<P>(pre: string, src: SourceFile, width: Int64, dpr: Int64, f: Family,
                         imgs: seq<Variant<P>>, i: nat, k: nat) returns (n: nat)
    requires 1 <= dpr <= |imgs|
    requires i < |GroupOrder(f)| && k < dpr
    ensures var g := GroupsFor(pre, src, width, dpr, f)[i];
            var plan := WritePlan(src, width, dpr, f, imgs);
            && n < |plan|
            && plan[n] == Write([src.dirName, g.filePaths[k].url[2]], g.codec, imgs[k])
  {
    var g := GroupsFor(pre, src, width, dpr, f)[i];
    var plan := WritePlan(src, width, dpr, f, imgs);
    assert g.filePaths[k].url[2] == Name(width, k + 1, g.codec);
    PlanEntry(src, width, dpr, f, imgs, k);
    if f == Photographic {
      n := if g.codec == Jpeg then 2 * k else 2 * k + 1;
    } else {
      n := k;
    }
  }
}

=== FILE: decimal.dfy ===
/** Go's 64-bit integers and their decimal text form: `strconv.Atoi`, used by
    `getWidths`, and the `%d` verb of `fmt.Sprintf`, used to name every output
    file. The two are inverse on the `int` range, which is what makes the file
    names of one source image collision-free. */
module Decimal {
  import opened Wrappers

  const MinInt64: int := -0x8000_0000_0000_0000
  const MaxInt64: int := 0x7fff_ffff_ffff_ffff
  const TwoTo64: int := 0x1_0000_0000_0000_0000

  /** Go's `int` on a 64-bit platform. */
  type Int64 = x: int | MinInt64 <= x <= MaxInt64

  /** Go's `uint` on a 64-bit platform. */
  type Uint64 = x: int | 0 <= x < TwoTo64

  /** Go's wrap-around on integer overflow: the `int` with the same low 64 bits. */
  function WrapInt64(x: int): (r: Int64)
    ensures (r - x) % TwoTo64 == 0
    ensures MinInt64 <= x <= MaxInt64 ==> r == x
  {
    (x - MinInt64) % TwoTo64 + MinInt64
  }

  /** The conversion `uint(x)`: the same 64 bits read as unsigned. */
  function ToUint(x: Int64): (r: Uint64)
    ensures (r - x) % TwoTo64 == 0
    ensures x >= 0 ==> r == x
  {
    if x < 0 then x + TwoTo64 else x
  }

  /** The conversion loses nothing: distinct `int`s stay distinct. */
  lemma ToUintInjective(a: Int64, b: Int64)
    ensures ToUint(a) == ToUint(b) <==> a == b
  {
  }

  predicate IsDigit(c: char) {
    '0' <= c <= '9'
  }

  predicate AllDigits(s: string) {
    forall i :: 0 <= i < |s| ==> IsDigit(s[i])
  }

  function DigitValue(c: char): nat
    requires IsDigit(c)
  {
    (c as int) - ('0' as int)
  }

  function DigitChar(d: nat): (c: char)
    requires d < 10
    ensures IsDigit(c) && DigitValue(c) == d
  {
    ('0' as int + d) as char
  }

  /** The value of a digit string, most significant digit first. */
  function DigitsValue(s: string): nat
    requires AllDigits(s)
  {
    if s == [] then 0 else DigitsValue(s[..|s| - 1]) * 10 + DigitValue(s[|s| - 1])
  }

  /** `%d` of a non-negative integer: its shortest decimal digit string. */
  function NatToString(n: nat): (s: string)
    ensures 1 <= |s| && AllDigits(s)
    ensures DigitsValue(s) == n
    ensures s[0] == '0' ==> n == 0
  {
    if n < 10 then [DigitChar(n)]
    else
      var prefix := NatToString(n / 10);
      var s := prefix + [DigitChar(n % 10)];
      assert s[..|s| - 1] == prefix;
      s
  }

  /** `%d` of an `int`: a minus sign before the magnitude when negative. */
  function IntToString(n: int): (s: string)
    ensures 1 <= |s|
    ensures forall i :: 0 <= i < |s| ==> IsDigit(s[i]) || s[i] == '-'
  {
    if n < 0 then "-" + NatToString(-n) else NatToString(n)
  }

  /** `%d` text is canonical: a minus sign exactly for negative numbers,
      then the digits of the magnitude with no leading zero (so neither
      `"0288"` nor `"-0"` is ever printed). */
  lemma IntToStringCanonical(n: int)
    ensures var s := IntToString(n);
            && (s[0] == '-' <==> n < 0)
            && var m := if n < 0 then s[1..] else s;
               && 1 <= |m| && AllDigits(m)
               && DigitsValue(m) == (if n < 0 then -n else n)
               && (m[0] == '0' ==> n == 0)
  {
    if n < 0 {
      assert IntToString(n)[1..] == NatToString(-n);
    }
  }

  /** `%d` text holds no letters. */
  lemma IntToStringHasNo(n: int, c: char)
    requires c != '-' && !IsDigit(c)
    ensures c !in IntToString(n)
  {
  }

  /** `strconv.Atoi` on a 64-bit platform. An optional sign followed by one or
      more ASCII digits parses, as long as the value fits in `int`; anything
      else (the empty string, spaces, a lone sign, underscores, an out-of-range
      value) is an error, modelled as `None`. */
  function Atoi(s: string): (r: Option<Int64>)
    ensures r.Some? ==> 1 <= |s| && (IsDigit(s[0]) || s[0] == '-' || s[0] == '+')
    ensures r.Some? ==> forall i :: 0 < i < |s| ==> IsDigit(s[i])
    ensures r.Some? && s[0] == '-' ==> r.value <= 0
    ensures r.Some? && s[0] != '-' ==> r.value >= 0
    ensures r.Some? ==>
              var d := if s[0] == '-' || s[0] == '+' then s[1..] else s;
              && 1 <= |d| && AllDigits(d)
              && (if s[0] == '-' then -(r.value as int) else r.value as int) == DigitsValue(d) as int
    ensures (1 <= |s| &&
             var d := if s[0] == '-' || s[0] == '+' then s[1..] else s;
             && 1 <= |d| && AllDigits(d)
             && MinInt64 <= (if s[0] == '-' then -(DigitsValue(d) as int) else DigitsValue(d) as int) <= MaxInt64)
            ==> r.Some?
  {
    if |s| == 0 then None
    else
      var digits := if s[0] == '-' || s[0] == '+' then s[1..] else s;
      if |digits| == 0 || !AllDigits(digits) then None
      else
        var magnitude: int := DigitsValue(digits);
        var v := if s[0] == '-' then -magnitude else magnitude;
        if MinInt64 <= v <= MaxInt64 then Some(v) else None
  }

  /** Parsing what `%d` printed gives the number back, for every `int`. */
  lemma AtoiIntToString(n: Int64)
    ensures Atoi(IntToString(n)) == Some(n)
  {
    var s := IntToString(n);
    if n < 0 {
      var m: nat := -(n as int);
      assert s[1..] == NatToString(m);
    } else {
      assert s == NatToString(n);
      assert IsDigit(s[0]);
    }
  }

  /** Two `int`s with the same `%d` text are equal. */
  lemma IntToStringInjective(a: Int64, b: Int64)
    ensures IntToString(a) == IntToString(b) <==> a == b
  {
    if IntToString(a) == IntToString(b) {
      AtoiIntToString(a);
      AtoiIntToString(b);
    }
  }
}

=== FILE: markup.dfy ===
/** `printHTML` (webpic.go:141-183): the `<picture>` element for one input
    file, following the `picture`/`source`/`img srcset` model of sections
    4.8.1 to 4.8.3 of the WHATWG HTML Living Standard. The template engine is
    not modelled; the element structure its template produces is, and
    `Render` spells that structure out as the template's text. */
module Markup {
  import opened Wrappers
  import opened Decimal
  import opened Artifacts

  /** One image candidate of a `srcset`: a URL and, when present, the pixel
      density descriptor `Nx`. */
  datatype Candidate = Candidate(url: seq<string>, density: Option<Uint64>)

  /** A `<source>`: whether it carries the `media` breakpoint attribute, the
      `image/...` subtype and its candidates. */
  datatype Source = Source(media: bool, fileType: string, srcset: seq<Candidate>)

  /** The fallback `<img>`: its `src` (absent only for a group without
      files), the further candidates of its `srcset` (no attribute when
      empty), and its `width`; `alt` is always empty. */
  datatype Fallback = Fallback(src: Option<seq<string>>, srcset: seq<Candidate>, width: Uint64)

  datatype Picture = Picture(sources: seq<Source>, img: Fallback)

  /** The backward scan from index `i`, every group from `i` to the end having
      width `w`: step back while the previous group has width `w` too. */
  function ScanBack(ifps: seq<Group>, i: nat, w: Uint64): (r: nat)
    requires i < |ifps| && forall j :: i <= j < |ifps| ==> ifps[j].width == w
    ensures r <= i
    ensures forall j :: r <= j < |ifps| ==> ifps[j].width == w
    ensures r == 0 || ifps[r - 1].width != w
  {
    if i == 0 then 0
    else if ifps[i - 1].width == w then ScanBack(ifps, i - 1, w)
    else i
  }

  /** `lastWidthIndex`: where the final run of groups sharing the last
      group's width begins. */
  function LastWidthIndex(ifps: seq<Group>): (r: nat)
    requires |ifps| > 0
    ensures r < |ifps|
    ensures forall j :: r <= j < |ifps| ==> ifps[j].width == ifps[|ifps| - 1].width
    ensures r == 0 || ifps[r - 1].width != ifps[|ifps| - 1].width
  {
    ScanBack(ifps, |ifps| - 1, ifps[|ifps| - 1].width)
  }

  /** The candidates of a `<source>`: every file of the group, density 1
      without a descriptor. */
  function SourceCandidates(paths: seq<FilePath>): seq<Candidate> {
    seq(|paths|, j requires 0 <= j < |paths| =>
      Candidate(paths[j].url, if paths[j].dpr == 1 then None else Some(paths[j].dpr)))
  }

  /** The `<img>` built from the last group: the first file is its `src`,
      every later file a candidate with its density descriptor. */
  function FallbackOf(g: Group): Fallback {
    var paths := g.filePaths;
    Fallback(if |paths| == 0 then None else Some(paths[0].url),
             seq(if |paths| == 0 then 0 else |paths| - 1, j requires 0 <= j < |paths| - 1 =>
               Candidate(paths[j + 1].url, Some(paths[j + 1].dpr))),
             g.width)
  }

  /** `printHTML`: a `<source>` for every group but the last, in order, the
      breakpoint attribute on those before `lastWidthIndex`, and one `<img>`
      from the last group. An empty list is out of the function's domain
      (the source indexes it at -1 and panics). */
  function PrintHTML(ifps: seq<Group>): (p: Picture)
    requires |ifps| > 0
    ensures |p.sources| == |ifps| - 1
    ensures forall i :: 0 <= i < |p.sources| ==>
              (p.sources[i].media <==> exists j :: i <= j < |ifps| && ifps[j].width != ifps[|ifps| - 1].width)
    ensures forall i :: 0 <= i < |p.sources| ==>
              && p.sources[i].fileType == FileType(ifps[i].codec)
              && |p.sources[i].srcset| == |ifps[i].filePaths|
    ensures forall i, j :: 0 <= i < |p.sources| && 0 <= j < |ifps[i].filePaths| ==>
              && p.sources[i].srcset[j].url == ifps[i].filePaths[j].url
              && (p.sources[i].srcset[j].density.None? <==> ifps[i].filePaths[j].dpr == 1)
    ensures forall i, j :: 0 <= i < |p.sources| && 0 <= j < |ifps[i].filePaths| && ifps[i].filePaths[j].dpr != 1 ==>
              p.sources[i].srcset[j].density == Some(ifps[i].filePaths[j].dpr)
    ensures p.img.width == ifps[|ifps| - 1].width
  {
    var last := |ifps| - 1;
    var lastWidthIndex := LastWidthIndex(ifps);
    Picture(seq(last, i requires 0 <= i < last =>
              Source(i < lastWidthIndex, FileType(ifps[i].codec), SourceCandidates(ifps[i].filePaths))),
            FallbackOf(ifps[last]))
  }

  /** The `<img>` stands for the last group: its `src` is that group's first
      file, its `srcset` lists every further file with an `Nx` descriptor,
      so the attribute appears exactly when the group has more than one file. */
  lemma FallbackIsLastGroup(ifps: seq<Group>)
    requires |ifps| > 0
    ensures var paths := ifps[|ifps| - 1].filePaths;
            var img := PrintHTML(ifps).img;
            && (img.src.Some? <==> |paths| > 0)
            && (img.src.Some? ==> img.src.value == paths[0].url)
            && (|img.srcset| > 0 <==> |paths| > 1)
            && |img.srcset| == (if |paths| == 0 then 0 else |paths| - 1)
            && forall j :: 0 < j < |paths| ==> img.srcset[j - 1] == Candidate(paths[j].url, Some(paths[j].dpr))
  {
  }

  /** Text of a URL: its segments separated by `/`. */
  function RenderUrl(url: seq<string>): string {
    if |url| == 0 then "" else if |url| == 1 then url[0] else url[0] + "/" + RenderUrl(url[1..])
  }

  function RenderCandidate(c: Candidate): string {
    RenderUrl(c.url) + (match c.density case None => "" case Some(d) => " " + NatToString(d) + "x")
  }

  /** A `srcset` value: the candidates separated by `, `. */
  function RenderSrcset(cs: seq<Candidate>): string {
    if |cs| == 0 then "" else if |cs| == 1 then RenderCandidate(cs[0])
    else RenderCandidate(cs[0]) + ", " + RenderSrcset(cs[1..])
  }

  function RenderSource(s: Source): string {
    "<source" + (if s.media then " media=\"(min-width: )\"" else "")
      + " type=\"image/" + s.fileType + "\" srcset=\"" + RenderSrcset(s.srcset) + "\">"
  }

  function RenderFallback(f: Fallback): string {
    "<img "
      + (match f.src
         case None => ""
         case Some(u) => "src=\"" + RenderUrl(u) + (if |f.srcset| > 0 then "\" srcset=\"" + RenderSrcset(f.srcset) else ""))
      + "\" alt=\"\" width=\"" + NatToString(f.width) + "\">"
  }

  function RenderSources(sources: seq<Source>): string {
    if |sources| == 0 then "" else RenderSources(sources[..|sources| - 1]) + "\n\t" + RenderSource(sources[|sources| - 1])
  }

  /** The text the template writes for a picture: each element on its own
      line, indented by a tab, between `<picture>` and `</picture>`. */
  function Render(p: Picture): (html: string)
    ensures |html| > |"<picture>"| + |"\n</picture>\n"|
    ensures html[..|"<picture>"|] == "<picture>"
    ensures html[|html| - |"\n</picture>\n"|..] == "\n</picture>\n"
  {
    "<picture>" + RenderSources(p.sources) + "\n\t" + RenderFallback(p.img) + "\n</picture>\n"
  }

  /** A single flat-colour width at density 1 yields no `<source>`, only the
      `<img>`, without a `srcset`. */
  lemma SinglePngPicture()
    ensures PrintHTML([Group(Png, 100, [FilePath(1, ["/img", "flat", "100w1d.png"])])])
            == Picture([], Fallback(Some(["/img", "flat", "100w1d.png"]), [], 100))
  {
  }
}

=== FILE: orientation.dfy ===
/** The tag walk of `getOrientation` (webpic.go:359-401). The Exif standard
    (CIPA DC-008, section 4.6.4) stores the Orientation tag (0x0112) as one
    SHORT, code 1 to 8. Extracting the Exif block and enumerating its IFDs is
    done by a foreign parser; the model starts from the sequence of tag entries
    that parser hands to the callback, in enumeration order, each with the
    decoded value or the fact that decoding it failed. */
module Orientation {
  import opened Wrappers

  /** Go's `uint16`. */
  type Uint16 = x: int | 0 <= x < 0x1_0000

  const OrientationTagName: string := "Orientation"

  /** The dynamic type of a decoded tag value, as the type switch sees it. */
  datatype TagValue =
    | Short(v: Uint16)          // uint16
    | Shorts(vs: seq<Uint16>)   // []uint16
    | OtherType                 // anything else

  /** One entry handed to the callback; `None` when `ite.Value()` fails. */
  datatype TagEntry = TagEntry(name: string, value: Option<TagValue>)

  datatype OrientationError =
    | ExifUnavailable   // no Exif block, or the IFDs could not be collected
    | ValueUnreadable   // the Orientation entry's value could not be decoded
    | MultipleValues    // a []uint16 whose length is not one
    | WrongType         // a value of another type

  /** What `getOrientation` returns: a code, and an error or none. */
  datatype Resolution = Resolution(code: Uint16, error: Option<OrientationError>)

  predicate IsOrientation(t: TagEntry) {
    t.name == OrientationTagName
  }

  /** An Orientation entry the callback accepts. */
  predicate WellFormed(t: TagEntry) {
    match t.value
    case Some(Short(_)) => true
    case Some(Shorts(vs)) => |vs| == 1
    case _ => false
  }

  function ValueOf(t: TagEntry): Uint16
    requires WellFormed(t)
  {
    match t.value
    case Some(Short(v)) => v
    case Some(Shorts(vs)) => vs[0]
  }

  /** The enumeration with the callback: `orient` is the value so far; every
      Orientation entry overwrites it, and the first one the callback rejects
      stops the walk with its error. */
  function Walk(tags: seq<TagEntry>, orient: Uint16): (r: Result<Uint16, OrientationError>)
    ensures r.Success? && r.value != orient ==>
              exists i :: 0 <= i < |tags| && IsOrientation(tags[i]) && WellFormed(tags[i]) && ValueOf(tags[i]) == r.value
    decreases |tags|
  {
    if tags == [] then Success(orient)
    else if !IsOrientation(tags[0]) then Walk(tags[1..], orient)
    else
      match tags[0].value
      case None => Failure(ValueUnreadable)
      case Some(Shorts(vs)) =>
        if |vs| != 1 then Failure(MultipleValues) else Walk(tags[1..], vs[0])
      case Some(Short(v)) => Walk(tags[1..], v)
      case Some(OtherType) => Failure(WrongType)
  }

  /** `getOrientation`: `exif` is `None` when the Exif block cannot be found
      or collected. Every error comes back with code 1. */
  function GetOrientation(exif: Option<seq<TagEntry>>): (r: Resolution)
    ensures r.error.Some? ==> r.code == 1
    ensures exif.None? ==> r.error.Some?
  {
    match exif
    case None => Resolution(1, Some(ExifUnavailable))
    case Some(tags) =>
      match Walk(tags, 1)
      case Success(v) => Resolution(v, None)
      case Failure(e) => Resolution(1, Some(e))
  }

  lemma {:induction false} WalkNoOrientation(tags: seq<TagEntry>, orient: Uint16)
    requires forall i :: 0 <= i < |tags| ==> !IsOrientation(tags[i])
    ensures Walk(tags, orient) == Success(orient)
  {
    if tags != [] {
      WalkNoOrientation(tags[1..], orient);
    }
  }

  lemma {:induction false} WalkLastWins(tags: seq<TagEntry>, orient: Uint16, i: nat)
    requires i < |tags| && IsOrientation(tags[i])
    requires forall j :: i < j < |tags| ==> !IsOrientation(tags[j])
    requires forall j :: 0 <= j < |tags| && IsOrientation(tags[j]) ==> WellFormed(tags[j])
    ensures Walk(tags, orient) == Success(ValueOf(tags[i]))
  {
    if i == 0 {
      WalkNoOrientation(tags[1..], ValueOf(tags[0]));
    } else if !IsOrientation(tags[0]) {
      WalkLastWins(tags[1..], orient, i - 1);
    } else {
      WalkLastWins(tags[1..], ValueOf(tags[0]), i - 1);
    }
  }

  lemma {:induction false} WalkFails(tags: seq<TagEntry>, orient: Uint16)
    ensures Walk(tags, orient).Failure? <==>
            exists j :: 0 <= j < |tags| && IsOrientation(tags[j]) && !WellFormed(tags[j])
  {
    if tags != [] {
      var next := if IsOrientation(tags[0]) && WellFormed(tags[0]) then ValueOf(tags[0]) else orient;
      WalkFails(tags[1..], next);
      if exists j :: 0 <= j < |tags| && IsOrientation(tags[j]) && !WellFormed(tags[j]) {
        var j :| 0 <= j < |tags| && IsOrientation(tags[j]) && !WellFormed(tags[j]);
        if j > 0 {
          assert tags[1..][j - 1] == tags[j];
        }
      }
      if exists j :: 0 <= j < |tags[1..]| && IsOrientation(tags[1..][j]) && !WellFormed(tags[1..][j]) {
        var j :| 0 <= j < |tags[1..]| && IsOrientation(tags[1..][j]) && !WellFormed(tags[1..][j]);
        assert tags[j + 1] == tags[1..][j];
      }
    }
  }

  /** An Exif block without an Orientation tag resolves to 1, without error. */
  lemma NoTagGivesOne(tags: seq<TagEntry>)
    requires forall i :: 0 <= i < |tags| ==> !IsOrientation(tags[i])
    ensures GetOrientation(Some(tags)) == Resolution(1, None)
  {
    WalkNoOrientation(tags, 1);
  }

  /** When every Orientation entry is a `uint16` or a one-element `[]uint16`,
      the last one decides the code: a later tag overwrites an earlier one. */
  lemma LastTagWins(tags: seq<TagEntry>, i: nat)
    requires i < |tags| && IsOrientation(tags[i])
    requires forall j :: i < j < |tags| ==> !IsOrientation(tags[j])
    requires forall j :: 0 <= j < |tags| && IsOrientation(tags[j]) ==> WellFormed(tags[j])
    ensures GetOrientation(Some(tags)) == Resolution(ValueOf(tags[i]), None)
  {
    WalkLastWins(tags, 1, i);
  }

  /** Resolution fails exactly when some Orientation entry is unreadable, a
      list of length other than one, or of another type; the code is then 1,
      whatever earlier entries said. */
  lemma MalformedTagFails(tags: seq<TagEntry>)
    ensures GetOrientation(Some(tags)).error.Some? <==>
            exists j :: 0 <= j < |tags| && IsOrientation(tags[j]) && !WellFormed(tags[j])
    ensures GetOrientation(Some(tags)).error.Some? ==> GetOrientation(Some(tags)).code == 1
  {
    WalkFails(tags, 1);
  }
}

=== FILE: pipeline.dfy ===
/** The invocation checks of `main` (webpic.go:55-70) and the per-file
    pipeline `generate` (webpic.go:107-139), with `getImage`
    (webpic.go:317-330). Reading the file, decoding it and extracting its
    Exif block are foreign: their answers are parameters. */
module Pipeline {
  import opened Wrappers
  import opened Decimal
  import opened Orientation
  import opened Raster
  import opened Transform
  import opened Artifacts
  import opened Markup

  /** The settings `main` validates before any file is processed. */
  predicate ValidSettings(qual: Int64, dpr: Int64) {
    1 <= qual <= 100 && dpr >= 1
  }

  datatype UsageError =
    | NoInputFiles
    | InvalidQuality(qual: Int64)
    | InvalidDpr(dpr: Int64)

  /** The checks of `main`, in order: at least one input file, then the
      quality, then the density ceiling. Each failure prints the usage and
      exits with status 1 before any file is processed. */
  function ValidateInvocation(fileCount: nat, qual: Int64, dpr: Int64): (r: Outcome<UsageError>)
    ensures r.Pass? <==> fileCount > 0 && ValidSettings(qual, dpr)
    ensures fileCount == 0 ==> r == Fail(NoInputFiles)
    ensures fileCount > 0 && !(1 <= qual <= 100) ==> r == Fail(InvalidQuality(qual))
    ensures r.Fail? && r.error.InvalidDpr? ==> 1 <= qual <= 100 && dpr < 1
    ensures fileCount > 0 && 1 <= qual <= 100 && dpr < 1 ==> r == Fail(InvalidDpr(dpr))
  {
    if fileCount == 0 then Fail(NoInputFiles)
    else if qual < 1 || qual > 100 then Fail(InvalidQuality(qual))
    else if dpr < 1 then Fail(InvalidDpr(dpr))
    else Pass
  }

  /** The validated configuration every `generate` reads: URL prefix,
      density ceiling and encoder quality (only handed to the encoders). */
  datatype Config = Config(pre: string, dpr: Int64, qual: Int64)

  datatype DecodeError =
    | UnsupportedInput(fileType: string)   // extension other than jpg, png, heic
    | CodecError                           // opening or decoding the file failed

  datatype GenerateError =
    | DecodeFailed(decodeError: DecodeError)
    | TransformFailed(transformError: TransformError)
    | WriteFailedFor(width: Int64, writeError: WriteError)

  /** How one file's pipeline ends: an error message, or its markup. */
  datatype FileResult = Failed(error: GenerateError) | Rendered(picture: Picture)

  /** `getImage`: the lower-cased extension picks the decoder; `decoded` is
      that decoder's answer (`None` when opening or decoding fails). */
  function GetImage<P>(ext: string, decoded: Option<Image<P>>): (r: Result<Image<P>, DecodeError>)
    ensures r.Success? <==> Lower(ext) in {"jpg", "png", "heic"} && decoded.Some?
    ensures r.Success? ==> r.value == decoded.value
    ensures Lower(ext) !in {"jpg", "png", "heic"} ==> r == Failure(UnsupportedInput(Lower(ext)))
    ensures Lower(ext) in {"jpg", "png", "heic"} && decoded.None? ==> r == Failure(CodecError)
  {
    var fileType := Lower(ext);
    if fileType == "jpg" || fileType == "png" || fileType == "heic" then
      match decoded
      case None => Failure(CodecError)
      case Some(img) => Success(img)
    else Failure(UnsupportedInput(fileType))
  }

  /** The steps before the width loop: resolve the orientation (whose error
      is only reported: its code, 1 on error, is used regardless), decode,
      then transform. */
  function PrepareImage<P>(ext: string, exif: Option<seq<TagEntry>>, decoded: Option<Image<P>>)
    : (r: Result<Image<P>, GenerateError>)
    requires decoded.Some? ==> Valid(decoded.value)
    ensures r.Success? ==> Valid(r.value)
    ensures r.Success? <==>
              && Lower(ext) in {"jpg", "png", "heic"} && decoded.Some?
              && TransformAccordingly(decoded.value, GetOrientation(exif).code).Success?
    ensures r.Success? ==> r.value == TransformAccordingly(decoded.value, GetOrientation(exif).code).value
    ensures Lower(ext) !in {"jpg", "png", "heic"} ==> r == Failure(DecodeFailed(UnsupportedInput(Lower(ext))))
    ensures r.Failure? && r.error.TransformFailed? ==> Lower(ext) in {"jpg", "png", "heic"} && decoded.Some?
    ensures Lower(ext) in {"jpg", "png", "heic"} && decoded.None? ==> r == Failure(DecodeFailed(CodecError))
    ensures Lower(ext) in {"jpg", "png", "heic"} && decoded.Some? &&
            TransformAccordingly(decoded.value, GetOrientation(exif).code).Failure? ==>
              r == Failure(TransformFailed(TransformAccordingly(decoded.value, GetOrientation(exif).code).error))
  {
    var orient := GetOrientation(exif).code;
    match GetImage(ext, decoded)
    case Failure(e) => Failure(DecodeFailed(e))
    case Success(img) =>
      match TransformAccordingly(img, orient)
      case Failure(e) => Failure(TransformFailed(e))
      case Success(upright) => Success(upright)
  }

  /** One iteration of the width loop: resize the upright image for every
      density, then write the files. */
  function WidthGroups<P>(cfg: Config, src: SourceFile, fs: FileSystem, upright: Image<P>, width: Int64)
    : (r: Result<seq<Group>, WriteError>)
    requires cfg.dpr >= 1
    ensures r.Success? ==> 1 <= |r.value| <= 2
  {
    WriteImages(cfg.pre, src, cfg.dpr, width, ResizeAccordingly(upright, width, cfg.dpr), fs)
  }

  /** The loop body as a value: what `writeImages` answers for each width. */
  function Step<P>(cfg: Config, src: SourceFile, fs: FileSystem, upright: Image<P>): Int64 -> Result<seq<Group>, WriteError>
    requires cfg.dpr >= 1
  {
    (w: Int64) => WidthGroups(cfg, src, fs, upright, w)
  }

  /** Every width's groups were written. */
  ghost predicate AllWritten(step: Int64 -> Result<seq<Group>, WriteError>, widths: seq<Int64>) {
    forall k :: 0 <= k < |widths| ==> step(widths[k]).Success?
  }

  /** The collected `imageFilePaths`: each width's groups appended in the
      order of the widths. */
  function Collect(step: Int64 -> Result<seq<Group>, WriteError>, widths: seq<Int64>): (groups: seq<Group>)
    requires AllWritten(step, widths)
  {
    if widths == [] then []
    else Collect(step, widths[..|widths| - 1]) + step(widths[|widths| - 1]).value
  }

  /** One more written width extends the written prefix and appends its
      groups to the collection. */
  lemma CollectAppend(step: Int64 -> Result<seq<Group>, WriteError>, widths: seq<Int64>, n: nat)
    requires n < |widths|
    requires AllWritten(step, widths[..n])
    requires step(widths[n]).Success?
    ensures AllWritten(step, widths[..n + 1])
    ensures Collect(step, widths[..n + 1]) == Collect(step, widths[..n]) + step(widths[n]).value
  {
    assert widths[..n + 1][..n] == widths[..n];
  }

  /** Nothing else is collected: every group comes from some width's
      written groups. */
  lemma {:induction false} CollectOrigin(step: Int64 -> Result<seq<Group>, WriteError>, widths: seq<Int64>, i: nat)
      returns (k: nat)
    requires AllWritten(step, widths)
    requires i < |Collect(step, widths)|
    ensures k < |widths| && Collect(step, widths)[i] in step(widths[k]).value
  {
    var front := Collect(step, widths[..|widths| - 1]);
    assert AllWritten(step, widths[..|widths| - 1]);
    if i < |front| {
      k := CollectOrigin(step, widths[..|widths| - 1], i);
    } else {
      k := |widths| - 1;
      assert Collect(step, widths)[i] == step(widths[k]).value[i - |front|];
    }
  }

  /** The groups of a non-empty run of written widths are not empty: every
      width yields at least one group. */
  lemma CollectNonEmpty<P>(cfg: Config, src: SourceFile, fs: FileSystem, upright: Image<P>, widths: seq<Int64>)
    requires cfg.dpr >= 1 && |widths| >= 1
    requires AllWritten(Step(cfg, src, fs, upright), widths)
    ensures |Collect(Step(cfg, src, fs, upright), widths)| >= 1
  {
    var last := widths[|widths| - 1];
    assert Step(cfg, src, fs, upright)(last) == WidthGroups(cfg, src, fs, upright, last);
  }

  /** The width loop of `generate`: write every width in order, stopping at
      the first that fails; `attempted` counts the widths tried. */
  method WriteWidths(step: Int64 -> Result<seq<Group>, WriteError>, widths: seq<Int64>)
    returns (r: Result<seq<Group>, GenerateError>, attempted: nat)
    ensures r.Success? <==> AllWritten(step, widths)
    ensures r.Success? ==> attempted == |widths| && r.value == Collect(step, widths)
    ensures r.Failure? ==>
              && 1 <= attempted <= |widths|
              && AllWritten(step, widths[..attempted - 1])
              && step(widths[attempted - 1]).Failure?
              && r.error == WriteFailedFor(widths[attempted - 1], step(widths[attempted - 1]).error)
  {
    attempted := 0;
    var collected: seq<Group> := [];
    while attempted < |widths|
      invariant attempted <= |widths|
      invariant AllWritten(step, widths[..attempted])
      invariant collected == Collect(step, widths[..attempted])
    {
      var groups := step(widths[attempted]);
      if groups.Failure? {
        return Failure(WriteFailedFor(widths[attempted], groups.error)), attempted + 1;
      }
      CollectAppend(step, widths, attempted);
      collected := collected + groups.value;
      attempted := attempted + 1;
    }
    assert widths[..attempted] == widths;
    r := Success(collected);
  }

  /** `generate` for one file. Decoding or transforming failures end the file
      before any width is written; otherwise the widths are written in order
      and markup is rendered only when every one of them was written. */
  method Generate<P>(cfg: Config, widths: seq<Int64>, src: SourceFile,
                     exif: Option<seq<TagEntry>>, decoded: Option<Image<P>>, fs: FileSystem)
    returns (result: FileResult, attempted: nat)
    requires ValidSettings(cfg.qual, cfg.dpr)
    requires |widths| >= 1
    requires decoded.Some? ==> Valid(decoded.value)
    ensures PrepareImage(src.ext, exif, decoded).Failure? ==>
              result == Failed(PrepareImage(src.ext, exif, decoded).error) && attempted == 0
    ensures PrepareImage(src.ext, exif, decoded).Success? ==>
              var step := Step(cfg, src, fs, PrepareImage(src.ext, exif, decoded).value);
              && (result.Rendered? <==> AllWritten(step, widths))
              && (result.Rendered? ==> attempted == |widths| && result.picture == PrintHTML(Collect(step, widths)))
              && (result.Failed? ==>
                    && 1 <= attempted <= |widths|
                    && AllWritten(step, widths[..attempted - 1])
                    && step(widths[attempted - 1]).Failure?
                    && result.error == WriteFailedFor(widths[attempted - 1], step(widths[attempted - 1]).error))
  {
    var prepared := PrepareImage(src.ext, exif, decoded);
    if prepared.Failure? {
      return Failed(prepared.error), 0;
    }
    var step := Step(cfg, src, fs, prepared.value);
    var written;
    written, attempted := WriteWidths(step, widths);
    if written.Failure? {
      return Failed(written.error), attempted;
    }
    CollectNonEmpty(cfg, src, fs, prepared.value, widths);
    result := Rendered(PrintHTML(written.value));
  }

  /** An orientation that cannot be resolved does not stop the file: code 1
      is used, which passes an NRGBA image through unchanged. */
  lemma OrientationErrorIsNotFatal<P>(ext: string, exif: Option<seq<TagEntry>>, img: Image<P>)
    requires Valid(img) && img.nrgba
    requires Lower(ext) in {"jpg", "png", "heic"}
    requires GetOrientation(exif).error.Some?
    ensures PrepareImage(ext, exif, Some(img)) == Success(img)
  {
    assert GetOrientation(exif).code == 1;
  }

  /** Orientation 1, including the code used when there is no Exif block at
      all, fails for any decoded image that is not already NRGBA. */
  lemma UprightNonNrgbaFails<P>(ext: string, exif: Option<seq<TagEntry>>, img: Image<P>)
    requires Valid(img) && !img.nrgba
    requires Lower(ext) in {"jpg", "png", "heic"}
    requires GetOrientation(exif).code == 1
    ensures PrepareImage(ext, exif, Some(img)) == Failure(TransformFailed(NotNrgba))
  {
  }

  /** A prepared file always has a known family, so `writeImages` never
      reports an unknown file type for it: every extension `getImage`
      accepts is one `writeImages` knows. */
  lemma PreparedHasFamily<P>(cfg: Config, src: SourceFile, exif: Option<seq<TagEntry>>,
                             decoded: Option<Image<P>>, fs: FileSystem, width: Int64)
    requires cfg.dpr >= 1
    requires decoded.Some? ==> Valid(decoded.value)
    requires PrepareImage(src.ext, exif, decoded).Success?
    ensures FamilyOf(Lower(src.ext)).Some?
    ensures !WidthGroups(cfg, src, fs, PrepareImage(src.ext, exif, decoded).value, width).Failure?
            || !WidthGroups(cfg, src, fs, PrepareImage(src.ext, exif, decoded).value, width).error.UnknownFileType?
  {
  }

  /** A written width yields exactly the groups of its family. */
  lemma WrittenWidth<P>(cfg: Config, src: SourceFile, fs: FileSystem, upright: Image<P>, width: Int64, f: Family)
    requires cfg.dpr >= 1
    requires FamilyOf(Lower(src.ext)) == Some(f)
    requires Step(cfg, src, fs, upright)(width).Success?
    ensures Step(cfg, src, fs, upright)(width) == Success(GroupsFor(cfg.pre, src, width, cfg.dpr, f))
  {
    assert Step(cfg, src, fs, upright)(width) == WidthGroups(cfg, src, fs, upright, width);
  }

  /** Collecting widths that each yield two groups puts the groups of the
      k-th width at 2k and 2k+1. */
  lemma {:induction false} CollectPairs(step: Int64 -> Result<seq<Group>, WriteError>, widths: seq<Int64>,
                                        blocks: Int64 -> seq<Group>)
    requires forall k :: 0 <= k < |widths| ==> step(widths[k]) == Success(blocks(widths[k]))
    requires forall k :: 0 <= k < |widths| ==> |blocks(widths[k])| == 2
    ensures AllWritten(step, widths)
    ensures var groups := Collect(step, widths);
            && |groups| == 2 * |widths|
            && forall k :: 0 <= k < |widths| ==>
                 groups[2 * k] == blocks(widths[k])[0] && groups[2 * k + 1] == blocks(widths[k])[1]
  {
    if widths != [] {
      var n := |widths| - 1;
      var prefix := widths[..n];
      assert forall k :: 0 <= k < n ==> prefix[k] == widths[k];
      CollectPairs(step, prefix, blocks);
      var groups := Collect(step, widths);
      assert groups == Collect(step, prefix) + blocks(widths[n]);
    }
  }

  /** Collecting widths that each yield one group puts the k-th width's
      group at k. */
  lemma {:induction false} CollectSingles(step: Int64 -> Result<seq<Group>, WriteError>, widths: seq<Int64>,
                                          blocks: Int64 -> seq<Group>)
    requires forall k :: 0 <= k < |widths| ==> step(widths[k]) == Success(blocks(widths[k]))
    requires forall k :: 0 <= k < |widths| ==> |blocks(widths[k])| == 1
    ensures AllWritten(step, widths)
    ensures var groups := Collect(step, widths);
            && |groups| == |widths|
            && forall k :: 0 <= k < |widths| ==> groups[k] == blocks(widths[k])[0]
  {
    if widths != [] {
      var n := |widths| - 1;
      var prefix := widths[..n];
      assert forall k :: 0 <= k < n ==> prefix[k] == widths[k];
      CollectSingles(step, prefix, blocks);
      var groups := Collect(step, widths);
      assert groups == Collect(step, prefix) + blocks(widths[n]);
    }
  }

  /** The collected groups of a photographic file: for the k-th width, the
      WEBP group at 2k and the JPEG group at 2k+1, both for that width at
      every density. */
  lemma PhotographicLayout<P>(cfg: Config, src: SourceFile, fs: FileSystem, upright: Image<P>, widths: seq<Int64>)
    requires cfg.dpr >= 1
    requires FamilyOf(Lower(src.ext)) == Some(Photographic)
    requires AllWritten(Step(cfg, src, fs, upright), widths)
    ensures var groups := Collect(Step(cfg, src, fs, upright), widths);
            && |groups| == 2 * |widths|
            && forall k :: 0 <= k < |widths| ==>
                 && groups[2 * k].codec == Webp && groups[2 * k + 1].codec == Jpeg
                 && WellFormedGroup(groups[2 * k], cfg.pre, src, widths[k], cfg.dpr)
                 && WellFormedGroup(groups[2 * k + 1], cfg.pre, src, widths[k], cfg.dpr)
  {
    var step := Step(cfg, src, fs, upright);
    var blocks := (w: Int64) => GroupsFor(cfg.pre, src, w, cfg.dpr, Photographic);
    forall k | 0 <= k < |widths|
      ensures step(widths[k]) == Success(blocks(widths[k]))
      ensures |blocks(widths[k])| == 2
    {
      WrittenWidth(cfg, src, fs, upright, widths[k], Photographic);
    }
    CollectPairs(step, widths, blocks);
  }

  /** The collected groups of a flat-colour file: the PNG group of the k-th
      width at k, for that width at every density. */
  lemma FlatColorLayout<P>(cfg: Config, src: SourceFile, fs: FileSystem, upright: Image<P>, widths: seq<Int64>)
    requires cfg.dpr >= 1
    requires FamilyOf(Lower(src.ext)) == Some(FlatColor)
    requires AllWritten(Step(cfg, src, fs, upright), widths)
    ensures var groups := Collect(Step(cfg, src, fs, upright), widths);
            && |groups| == |widths|
            && forall k :: 0 <= k < |widths| ==>
                 groups[k].codec == Png && WellFormedGroup(groups[k], cfg.pre, src, widths[k], cfg.dpr)
  {
    var step := Step(cfg, src, fs, upright);
    var blocks := (w: Int64) => GroupsFor(cfg.pre, src, w, cfg.dpr, FlatColor);
    forall k | 0 <= k < |widths|
      ensures step(widths[k]) == Success(blocks(widths[k]))
      ensures |blocks(widths[k])| == 1
    {
      WrittenWidth(cfg, src, fs, upright, widths[k], FlatColor);
    }
    CollectSingles(step, widths, blocks);
  }

  /** Groups laid out in pairs, WEBP then JPEG, pair k for width k. */
  ghost predicate PairedLayout(groups: seq<Group>, widths: seq<Int64>) {
    && |groups| == 2 * |widths|
    && forall k :: 0 <= k < |widths| ==>
         && groups[2 * k].codec == Webp && groups[2 * k + 1].codec == Jpeg
         && groups[2 * k].width == ToUint(widths[k]) && groups[2 * k + 1].width == ToUint(widths[k])
  }

  /** In a paired layout, group j is for width j/2. */
  lemma PairWidth(groups: seq<Group>, widths: seq<Int64>, j: nat)
    requires PairedLayout(groups, widths) && j < |groups|
    ensures j / 2 < |widths| && groups[j].width == ToUint(widths[j / 2])
  {
    assert j == 2 * (j / 2) || j == 2 * (j / 2) + 1;
  }

  /** In a paired layout, `<source>` i carries the breakpoint attribute
      exactly when some width from pair i/2 on differs from the last width. */
  lemma PairedMedia(groups: seq<Group>, widths: seq<Int64>, i: nat)
    requires |widths| >= 1 && PairedLayout(groups, widths) && i < |groups| - 1
    ensures PrintHTML(groups).sources[i].media
            <==> exists m :: i / 2 <= m < |widths| && widths[m] != widths[|widths| - 1]
  {
    var n := |widths|;
    var last := widths[n - 1];
    PairWidth(groups, widths, |groups| - 1);
    if PrintHTML(groups).sources[i].media {
      var j :| i <= j < |groups| && groups[j].width != groups[|groups| - 1].width;
      PairWidth(groups, widths, j);
      assert widths[j / 2] != last;
    }
    if m :| i / 2 <= m < n && widths[m] != last {
      var j := if 2 * m >= i then 2 * m else 2 * m + 1;
      PairWidth(groups, widths, j);
      ToUintInjective(widths[m], last);
      assert groups[j].width != groups[|groups| - 1].width;
    }
  }

  /** The markup of a paired layout: a `<source>` for every group but the
      last JPEG one, WEBP and JPEG alternating, and the `<img>` for the last
      width, its `src` the last group's first file. */
  lemma PairedPicture(groups: seq<Group>, widths: seq<Int64>)
    requires |widths| >= 1 && PairedLayout(groups, widths)
    ensures var p := PrintHTML(groups);
            && |p.sources| == 2 * |widths| - 1
            && (forall k :: 0 <= k < |widths| ==> p.sources[2 * k].fileType == "webp")
            && (forall k :: 0 <= k < |widths| - 1 ==> p.sources[2 * k + 1].fileType == "jpeg")
            && p.img.width == ToUint(widths[|widths| - 1])
            && (|groups[|groups| - 1].filePaths| >= 1 ==> p.img.src == Some(groups[|groups| - 1].filePaths[0].url))
  {
    var n := |widths|;
    var p := PrintHTML(groups);
    forall k | 0 <= k < n - 1 ensures p.sources[2 * k + 1].fileType == "jpeg" {
    }
    PairWidth(groups, widths, |groups| - 1);
  }

  /** The breakpoints of a paired layout, for every `<source>`. */
  lemma PairedBreakpoints(groups: seq<Group>, widths: seq<Int64>)
    requires |widths| >= 1 && PairedLayout(groups, widths)
    ensures forall i :: 0 <= i < |groups| - 1 ==>
              (PrintHTML(groups).sources[i].media
               <==> exists m :: i / 2 <= m < |widths| && widths[m] != widths[|widths| - 1])
  {
    forall i | 0 <= i < |groups| - 1
      ensures PrintHTML(groups).sources[i].media
              <==> exists m :: i / 2 <= m < |widths| && widths[m] != widths[|widths| - 1]
    {
      PairedMedia(groups, widths, i);
    }
  }

  /** The photographic layout is a paired layout whose last group starts
      with the last width's density-1 JPEG file. */
  lemma PhotographicPaired<P>(cfg: Config, src: SourceFile, fs: FileSystem, upright: Image<P>, widths: seq<Int64>)
    requires cfg.dpr >= 1 && |widths| >= 1
    requires FamilyOf(Lower(src.ext)) == Some(Photographic)
    requires AllWritten(Step(cfg, src, fs, upright), widths)
    ensures var groups := Collect(Step(cfg, src, fs, upright), widths);
            && PairedLayout(groups, widths)
            && |groups[|groups| - 1].filePaths| >= 1
            && groups[|groups| - 1].filePaths[0]
               == FilePath(1, [cfg.pre, src.baseDir, Name(widths[|widths| - 1], 1, Jpeg)])
  {
    var groups := Collect(Step(cfg, src, fs, upright), widths);
    PhotographicLayout(cfg, src, fs, upright, widths);
    assert groups[|groups| - 1] == groups[2 * (|widths| - 1) + 1];
  }
}

=== FILE: raster.dfy ===
/** A decoded image as a grid of pixels, and the four geometric operations of
    the imaging library that `transformAccordingly` composes. The library is
    not part of this model: each operation is defined here by the pixel it
    copies into each position of its result, following the library's
    documented convention that `Rotate90` and `Rotate270` turn the picture 90
    and 270 degrees counter-clockwise. Pixel (x, y) is column x of row y,
    row 0 at the top and column 0 at the left. */
module Raster {

  /** `rows[y][x]` is pixel (x, y); `nrgba` is whether the Go value is an
      `*image.NRGBA`, the one dynamic type `transformAccordingly` passes
      through unchanged for orientation 1. */
  datatype Image<P> = Image(width: nat, height: nat, rows: seq<seq<P>>, nrgba: bool)

  ghost predicate Valid<P>(img: Image<P>) {
    |img.rows| == img.height && forall y :: 0 <= y < img.height ==> |img.rows[y]| == img.width
  }

  function At<P>(img: Image<P>, x: nat, y: nat): P
    requires Valid(img) && x < img.width && y < img.height
  {
    img.rows[y][x]
  }

  /** Two images with the same dimensions, type and pixels are equal. */
  lemma SameImage<P>(a: Image<P>, b: Image<P>)
    requires Valid(a) && Valid(b)
    requires a.width == b.width && a.height == b.height && a.nrgba == b.nrgba
    requires forall x, y :: 0 <= x < a.width && 0 <= y < a.height ==> At(a, x, y) == At(b, x, y)
    ensures a == b
  {
    forall y | 0 <= y < a.height
      ensures a.rows[y] == b.rows[y]
    {
      forall x | 0 <= x < a.width
        ensures a.rows[y][x] == b.rows[y][x]
      {
        assert At(a, x, y) == At(b, x, y);
      }
    }
    assert a.rows == b.rows;
  }

  /** `imaging.FlipH`: mirror left and right. */
  function FlipH<P>(img: Image<P>): (r: Image<P>)
    requires Valid(img)
    ensures Valid(r) && r.width == img.width && r.height == img.height && r.nrgba
    ensures forall x, y :: 0 <= x < r.width && 0 <= y < r.height ==>
              At(r, x, y) == At(img, img.width - 1 - x, y)
  {
    Image(img.width, img.height,
          seq(img.height, y requires 0 <= y < img.height =>
            seq(img.width, x requires 0 <= x < img.width => img.rows[y][img.width - 1 - x])),
          true)
  }

  /** `imaging.Rotate180`. */
  function Rotate180<P>(img: Image<P>): (r: Image<P>)
    requires Valid(img)
    ensures Valid(r) && r.width == img.width && r.height == img.height && r.nrgba
    ensures forall x, y :: 0 <= x < r.width && 0 <= y < r.height ==>
              At(r, x, y) == At(img, img.width - 1 - x, img.height - 1 - y)
  {
    Image(img.width, img.height,
          seq(img.height, y requires 0 <= y < img.height =>
            seq(img.width, x requires 0 <= x < img.width =>
              img.rows[img.height - 1 - y][img.width - 1 - x])),
          true)
  }

  /** `imaging.Rotate90`: a quarter turn counter-clockwise, so the source's
      right-most column becomes the top row. */
  function Rotate90<P>(img: Image<P>): (r: Image<P>)
    requires Valid(img)
    ensures Valid(r) && r.width == img.height && r.height == img.width && r.nrgba
    ensures forall x, y :: 0 <= x < r.width && 0 <= y < r.height ==>
              At(r, x, y) == At(img, img.width - 1 - y, x)
  {
    Image(img.height, img.width,
          seq(img.width, y requires 0 <= y < img.width =>
            seq(img.height, x requires 0 <= x < img.height => img.rows[x][img.width - 1 - y])),
          true)
  }

  /** `imaging.Rotate270`: three quarter turns counter-clockwise (one
      clockwise), so the source's left-most column, read bottom-up, becomes
      the top row. */
  function Rotate270<P>(img: Image<P>): (r: Image<P>)
    requires Valid(img)
    ensures Valid(r) && r.width == img.height && r.height == img.width && r.nrgba
    ensures forall x, y :: 0 <= x < r.width && 0 <= y < r.height ==>
              At(r, x, y) == At(img, y, img.height - 1 - x)
  {
    Image(img.height, img.width,
          seq(img.width, y requires 0 <= y < img.width =>
            seq(img.height, x requires 0 <= x < img.height => img.rows[img.height - 1 - x][y])),
          true)
  }
}

=== FILE: transform.dfy ===
/** `transformAccordingly` (webpic.go:273-315): turn a decoded image upright
    according to its Exif orientation code, and the meaning of those codes in
    the Exif standard (CIPA DC-008, section 4.6.4), against which the
    transform table is proved correct. */
module Transform {
  import opened Wrappers
  import opened Orientation
  import opened Raster

  datatype TransformError =
    | NotNrgba                              // code 1 on an image that is not *image.NRGBA
    | UnsupportedOrientation(code: Uint16)  // a code outside 1..8

  /** `transformAccordingly`. Codes 2 to 8 apply a fixed composition of the
      library operations; code 1 returns the image itself, but only when it
      is already an `*image.NRGBA`, and errors otherwise; any other code is
      an error. (For an out-of-range code on an NRGBA image the source also
      returns the image beside the error; the caller never looks at it.) */
  function TransformAccordingly<P>(img: Image<P>, orient: Uint16): (r: Result<Image<P>, TransformError>)
    requires Valid(img)
    ensures r.Success? <==> 2 <= orient <= 8 || (orient == 1 && img.nrgba)
    ensures orient == 1 && !img.nrgba ==> r == Failure(NotNrgba)
    ensures !(1 <= orient <= 8) ==> r == Failure(UnsupportedOrientation(orient))
    ensures r.Success? ==> Valid(r.value) && r.value.nrgba
    ensures r.Success? && orient <= 4 ==> r.value.width == img.width && r.value.height == img.height
    ensures r.Success? && 5 <= orient ==> r.value.width == img.height && r.value.height == img.width
  {
    if orient == 1 then
      if img.nrgba then Success(img) else Failure(NotNrgba)
    else if orient == 2 then Success(FlipH(img))
    else if orient == 3 then Success(Rotate180(img))
    else if orient == 4 then Success(FlipH(Rotate180(img)))
    else if orient == 5 then Success(FlipH(Rotate270(img)))
    else if orient == 6 then Success(Rotate270(img))
    else if orient == 7 then Success(FlipH(Rotate90(img)))
    else if orient == 8 then Success(Rotate90(img))
    else Failure(UnsupportedOrientation(orient))
  }

  /** Whether code `c` stores the scene's rows as columns (codes 5 to 8). */
  predicate SwapsAxes(c: Uint16) {
    5 <= c <= 8
  }

  /** The Exif table for the Orientation tag, read as a map from a position
      (x, y) of the stored pixel grid to the position of the upright scene
      (of size `sceneW` by `sceneH`) it holds:
        1: row 0 is the visual top,          column 0 the visual left;
        2: row 0 is the visual top,          column 0 the visual right;
        3: row 0 is the visual bottom,       column 0 the visual right;
        4: row 0 is the visual bottom,       column 0 the visual left;
        5: row 0 is the visual left,         column 0 the visual top;
        6: row 0 is the visual right,        column 0 the visual top;
        7: row 0 is the visual right,        column 0 the visual bottom;
        8: row 0 is the visual left,         column 0 the visual bottom. */
  function SceneCoord(c: Uint16, sceneW: nat, sceneH: nat, x: nat, y: nat): (p: (nat, nat))
    requires 1 <= c <= 8
    requires if SwapsAxes(c) then x < sceneH && y < sceneW else x < sceneW && y < sceneH
    ensures p.0 < sceneW && p.1 < sceneH
  {
    match c
    case 1 => (x, y)
    case 2 => (sceneW - 1 - x, y)
    case 3 => (sceneW - 1 - x, sceneH - 1 - y)
    case 4 => (x, sceneH - 1 - y)
    case 5 => (y, x)
    case 6 => (sceneW - 1 - y, x)
    case 7 => (sceneW - 1 - y, sceneH - 1 - x)
    case 8 => (y, sceneH - 1 - x)
  }

  /** The pixel grid a camera stores, with Orientation tag `c`, for the upright
      `scene`. */
  function Recorded<P>(c: Uint16, scene: Image<P>): (stored: Image<P>)
    requires 1 <= c <= 8 && Valid(scene)
    ensures Valid(stored) && stored.nrgba == scene.nrgba
    ensures SwapsAxes(c) ==> stored.width == scene.height && stored.height == scene.width
    ensures !SwapsAxes(c) ==> stored.width == scene.width && stored.height == scene.height
    ensures forall x, y :: 0 <= x < stored.width && 0 <= y < stored.height ==>
              var p := SceneCoord(c, scene.width, scene.height, x, y);
              At(stored, x, y) == At(scene, p.0, p.1)
  {
    var w := if SwapsAxes(c) then scene.height else scene.width;
    var h := if SwapsAxes(c) then scene.width else scene.height;
    Image(w, h,
          seq(h, y requires 0 <= y < h =>
            seq(w, x requires 0 <= x < w =>
              var p := SceneCoord(c, scene.width, scene.height, x, y);
              scene.rows[p.1][p.0])),
          scene.nrgba)
  }

  /** The transform table is the exact inverse of the Exif table: for every
      code 1 to 8, transforming what a camera stored with that code gives back
      the upright scene (as an NRGBA image). This pins down the rotation
      direction of every entry, including 4 = FlipH(Rotate180),
      5 = FlipH(Rotate270) and 7 = FlipH(Rotate90). */
  lemma TransformRestoresScene<P>(c: Uint16, scene: Image<P>)
    requires 1 <= c <= 8 && Valid(scene)
    requires c == 1 ==> scene.nrgba
    ensures TransformAccordingly(Recorded(c, scene), c) == Success(scene.(nrgba := true))
  {
    if c == 1 {
      UndoCode1(scene);
    } else if c == 2 {
      UndoCode2(scene);
    } else if c == 3 {
      UndoCode3(scene);
    } else if c == 4 {
      UndoCode4(scene);
    } else if c == 5 {
      UndoCode5(scene);
    } else if c == 6 {
      UndoCode6(scene);
    } else if c == 7 {
      UndoCode7(scene);
    } else {
      UndoCode8(scene);
    }
  }

  /** Code 1: the stored grid is the scene; an NRGBA image passes unchanged. */
  lemma UndoCode1<P>(scene: Image<P>)
    requires Valid(scene) && scene.nrgba
    ensures TransformAccordingly(Recorded(1, scene), 1) == Success(scene)
  {
    SameImage(Recorded(1, scene), scene);
  }

  /** Code 2: mirroring undoes the horizontal mirror. */
  lemma UndoCode2<P>(scene: Image<P>)
    requires Valid(scene)
    ensures TransformAccordingly(Recorded(2, scene), 2) == Success(scene.(nrgba := true))
  {
    SameImage(FlipH(Recorded(2, scene)), scene.(nrgba := true));
  }

  /** Code 3: a half turn undoes the half turn. */
  lemma UndoCode3<P>(scene: Image<P>)
    requires Valid(scene)
    ensures TransformAccordingly(Recorded(3, scene), 3) == Success(scene.(nrgba := true))
  {
    SameImage(Rotate180(Recorded(3, scene)), scene.(nrgba := true));
  }

  /** Code 6: a clockwise quarter turn puts the stored row 0 on the right. */
  lemma UndoCode6<P>(scene: Image<P>)
    requires Valid(scene)
    ensures TransformAccordingly(Recorded(6, scene), 6) == Success(scene.(nrgba := true))
  {
    SameImage(Rotate270(Recorded(6, scene)), scene.(nrgba := true));
  }

  /** Code 8: a counter-clockwise quarter turn puts the stored row 0 on the left. */
  lemma UndoCode8<P>(scene: Image<P>)
    requires Valid(scene)
    ensures TransformAccordingly(Recorded(8, scene), 8) == Success(scene.(nrgba := true))
  {
    SameImage(Rotate90(Recorded(8, scene)), scene.(nrgba := true));
  }

  /** Mirroring twice restores the picture, as an NRGBA image. */
  lemma FlipHTwice<P>(img: Image<P>)
    requires Valid(img)
    ensures FlipH(FlipH(img)) == img.(nrgba := true)
  {
    SameImage(FlipH(FlipH(img)), img.(nrgba := true));
  }

  /** Code 4: the half turn leaves the scene mirrored, and mirroring undoes
      that. */
  lemma UndoCode4<P>(scene: Image<P>)
    requires Valid(scene)
    ensures TransformAccordingly(Recorded(4, scene), 4) == Success(scene.(nrgba := true))
  {
    Code4LeavesMirror(scene);
    FlipHTwice(scene);
  }

  /** The turn alone: a half turn of what code 4 stored is the scene
      mirrored left to right. */
  lemma Code4LeavesMirror<P>(scene: Image<P>)
    requires Valid(scene)
    ensures Rotate180(Recorded(4, scene)) == FlipH(scene)
  {
    var stored := Recorded(4, scene);
    var turned := Rotate180(stored);
    forall x, y | 0 <= x < turned.width && 0 <= y < turned.height
      ensures At(turned, x, y) == At(FlipH(scene), x, y)
    {
      assert At(turned, x, y) == At(stored, stored.width - 1 - x, stored.height - 1 - y);
    }
    SameImage(turned, FlipH(scene));
  }

  /** Code 5: the clockwise quarter turn leaves the scene mirrored, and
      mirroring undoes that. */
  lemma UndoCode5<P>(scene: Image<P>)
    requires Valid(scene)
    ensures TransformAccordingly(Recorded(5, scene), 5) == Success(scene.(nrgba := true))
  {
    Code5LeavesMirror(scene);
    FlipHTwice(scene);
  }

  /** The turn alone: a clockwise quarter turn of what code 5 stored is the
      scene mirrored left to right. */
  lemma Code5LeavesMirror<P>(scene: Image<P>)
    requires Valid(scene)
    ensures Rotate270(Recorded(5, scene)) == FlipH(scene)
  {
    var stored := Recorded(5, scene);
    var turned := Rotate270(stored);
    forall x, y | 0 <= x < turned.width && 0 <= y < turned.height
      ensures At(turned, x, y) == At(FlipH(scene), x, y)
    {
      assert At(turned, x, y) == At(stored, y, stored.height - 1 - x);
    }
    SameImage(turned, FlipH(scene));
  }

  /** Code 7: the counter-clockwise quarter turn leaves the scene mirrored,
      and mirroring undoes that. */
  lemma UndoCode7<P>(scene: Image<P>)
    requires Valid(scene)
    ensures TransformAccordingly(Recorded(7, scene), 7) == Success(scene.(nrgba := true))
  {
    Code7LeavesMirror(scene);
    FlipHTwice(scene);
  }

  /** The turn alone: a counter-clockwise quarter turn of what code 7 stored
      is the scene mirrored left to right. */
  lemma Code7LeavesMirror<P>(scene: Image<P>)
    requires Valid(scene)
    ensures Rotate90(Recorded(7, scene)) == FlipH(scene)
  {
    var stored := Recorded(7, scene);
    var turned := Rotate90(stored);
    forall x, y | 0 <= x < turned.width && 0 <= y < turned.height
      ensures At(turned, x, y) == At(FlipH(scene), x, y)
    {
      assert At(turned, x, y) == At(stored, stored.width - 1 - y, x);
    }
    SameImage(turned, FlipH(scene));
  }
}

=== FILE: widths.dfy ===
/** `getWidths` (webpic.go:88-100): the `-widths` flag, a comma-separated list,
    becomes one `int` slot per token. A token that does not parse is reported
    and skipped by the loop, which leaves the zero the slice was created with
    in its slot; the token is NOT removed from the list. */
module Widths {
  import opened Wrappers
  import opened Decimal

  /** Number of occurrences of `c` in `s`. */
  function Count(s: string, c: char): nat {
    if s == [] then 0 else (if s[0] == c then 1 else 0) + Count(s[1..], c)
  }

  /** The inverse of `Split`: the parts, with `sep` between neighbours. */
  function Join(parts: seq<string>, sep: char): string
    requires |parts| >= 1
  {
    if |parts| == 1 then parts[0] else parts[0] + [sep] + Join(parts[1..], sep)
  }

  /** `strings.Split(s, sep)` for a one-character separator: the maximal
      separator-free pieces of `s`, empty ones included. The empty string
      splits into one empty piece. */
  function Split(s: string, sep: char): (parts: seq<string>)
    ensures |parts| == Count(s, sep) + 1
    ensures forall i :: 0 <= i < |parts| ==> sep !in parts[i]
    ensures Join(parts, sep) == s
  {
    if s == [] then [[]]
    else
      var rest := Split(s[1..], sep);
      if s[0] == sep then
        var parts := [[]] + rest;
        assert parts[1..] == rest;
        parts
      else
        var parts := [[s[0]] + rest[0]] + rest[1..];
        assert s == [s[0]] + s[1..];
        assert |rest| > 1 ==> Join(rest, sep) == rest[0] + [sep] + Join(rest[1..], sep);
        parts
  }

  /** Splitting what `Join` glued together gives the parts back, as long as no
      part contains the separator. */
  lemma {:induction false} SplitJoin(parts: seq<string>, sep: char)
    requires |parts| >= 1
    requires forall i :: 0 <= i < |parts| ==> sep !in parts[i]
    ensures Split(Join(parts, sep), sep) == parts
  {
    var joined := Join(parts, sep);
    var pieces := Split(joined, sep);
    if |parts| == 1 {
      SplitSeparatorFree(parts[0], sep);
    } else {
      SplitJoin(parts[1..], sep);
      SplitPrefix(parts[0], Join(parts[1..], sep), sep);
      assert [parts[0]] + parts[1..] == parts;
    }
  }

  /** A separator-free string is a single piece. */
  lemma {:induction false} SplitSeparatorFree(s: string, sep: char)
    requires sep !in s
    ensures Split(s, sep) == [s]
  {
    if s != [] {
      SplitSeparatorFree(s[1..], sep);
    }
  }

  /** A separator-free prefix followed by the separator becomes the first
      piece, in front of the pieces of the rest. */
  lemma {:induction false} SplitPrefix(head: string, tail: string, sep: char)
    requires sep !in head
    ensures Split(head + [sep] + tail, sep) == [head] + Split(tail, sep)
  {
    var s := head + [sep] + tail;
    if head == [] {
      assert s[1..] == tail;
    } else {
      assert s[1..] == head[1..] + [sep] + tail;
      SplitPrefix(head[1..], tail, sep);
      assert [head[0]] + head[1..] == head;
    }
  }

  /** The loop of `getWidths` over the tokens from index `i` on, starting from
      the slots filled so far: a token that parses is stored at its own index,
      one that does not is skipped. */
  function FillSlots(tokens: seq<string>, i: nat, slots: seq<Int64>): (filled: seq<Int64>)
    requires i <= |tokens| == |slots|
    requires forall j :: i <= j < |slots| ==> slots[j] == 0
    ensures |filled| == |tokens|
    ensures forall j :: 0 <= j < i ==> filled[j] == slots[j]
    ensures forall j :: i <= j < |tokens| && Atoi(tokens[j]).Some? ==> filled[j] == Atoi(tokens[j]).value
    ensures forall j :: i <= j < |tokens| && Atoi(tokens[j]).None? ==> filled[j] == 0
    decreases |tokens| - i
  {
    if i == |tokens| then slots
    else
      match Atoi(tokens[i])
      case None => FillSlots(tokens, i + 1, slots)
      case Some(v) => FillSlots(tokens, i + 1, slots[i := v])
  }

  /** `getWidths`: one slot per comma-separated token, in token order; the
      parsed value where the token parses, zero where it does not. */
  function GetWidths(flag: string): (widths: seq<Int64>)
    ensures |widths| == |Split(flag, ',')| == Count(flag, ',') + 1
    ensures forall i :: 0 <= i < |widths| && Atoi(Split(flag, ',')[i]).Some? ==>
                          widths[i] == Atoi(Split(flag, ',')[i]).value
    ensures forall i :: 0 <= i < |widths| && Atoi(Split(flag, ',')[i]).None? ==> widths[i] == 0
  {
    var tokens := Split(flag, ',');
    FillSlots(tokens, 0, seq(|tokens|, _ => 0))
  }

  /** The flag text that lists `widths` the way `%d` prints them. */
  function FormatWidths(widths: seq<Int64>): string
    requires |widths| >= 1
  {
    Join(seq(|widths|, i requires 0 <= i < |widths| => IntToString(widths[i])), ',')
  }

  /** Parsing a printed width list gives the list back: no slot is lost,
      added or moved. */
  lemma GetWidthsFormatWidths(widths: seq<Int64>)
    requires |widths| >= 1
    ensures GetWidths(FormatWidths(widths)) == widths
  {
    var tokens := seq(|widths|, i requires 0 <= i < |widths| => IntToString(widths[i]));
    forall i | 0 <= i < |tokens|
      ensures ',' !in tokens[i]
    {
      assert forall k :: 0 <= k < |tokens[i]| ==> tokens[i][k] != ',';
    }
    SplitJoin(tokens, ',');
    forall i | 0 <= i < |widths|
      ensures Atoi(tokens[i]) == Some(widths[i])
    {
      AtoiIntToString(widths[i]);
    }
  }

  /** The list "288,abc,576" is the `%d` text of 288 and 576 around the
      bad token. */
  lemma WidthListText()
    ensures IntToString(288) + ",abc," + IntToString(576) == "288,abc,576"
  {
    assert NatToString(288) == "288" by {
      assert NatToString(2) == "2";
      assert NatToString(28) == "28";
    }
    assert NatToString(576) == "576" by {
      assert NatToString(5) == "5";
      assert NatToString(57) == "57";
    }
  }

  /** A width list with a non-integer token in the middle, "288,abc,576",
      keeps a zero in that token's place instead of dropping it. */
  lemma UnparsableTokenLeavesZero()
    ensures GetWidths("288,abc,576") == [288, 0, 576]
  {
    WidthListText();
    UnparsableBetweenWidths(288, 576);
  }

  /** Three comma-free tokens joined by commas split back into them. */
  lemma SplitThree(tokens: seq<string>)
    requires |tokens| == 3 && forall i :: 0 <= i < 3 ==> ',' !in tokens[i]
    ensures Split(tokens[0] + [','] + tokens[1] + [','] + tokens[2], ',') == tokens
  {
    assert Join(tokens, ',') == tokens[0] + [','] + tokens[1] + [','] + tokens[2] by {
      assert Join(tokens[2..], ',') == tokens[2];
      assert Join(tokens[1..], ',') == tokens[1] + [','] + tokens[2];
    }
    SplitJoin(tokens, ',');
  }

  /** A non-integer token between two printed widths leaves a zero
      between them. */
  lemma UnparsableBetweenWidths(a: Int64, b: Int64)
    ensures GetWidths(IntToString(a) + ",abc," + IntToString(b)) == [a, 0, b]
  {
    var text := IntToString(a) + ",abc," + IntToString(b);
    var tokens := [IntToString(a), "abc", IntToString(b)];
    assert ',' !in tokens[0] && ',' !in tokens[2] by {
      assert forall k :: 0 <= k < |tokens[0]| ==> tokens[0][k] != ',';
      assert forall k :: 0 <= k < |tokens[2]| ==> tokens[2][k] != ',';
    }
    SplitThree(tokens);
    assert text == tokens[0] + [','] + tokens[1] + [','] + tokens[2];
    assert Atoi(tokens[0]) == Some(a) by { AtoiIntToString(a); }
    assert Atoi(tokens[1]) == None by { assert !IsDigit("abc"[0]); }
    assert Atoi(tokens[2]) == Some(b) by { AtoiIntToString(b); }
    var widths := GetWidths(text);
    assert |widths| == 3;
    assert widths[0] == a && widths[1] == 0 && widths[2] == b;
  }


}

=== FILE: wrappers.dfy ===
/** Failure-carrying datatypes shared by every module of the model.
    Go's `(value, error)` return pairs become a `Result`; an error without a
    value becomes an `Outcome`. */
module Wrappers {

  datatype Option<+T> = None | Some(value: T)

  /** A value or an error, the model of a Go `(T, error)` pair whose value is
      only used when the error is nil. */
  datatype Result<+T, +E> = Success(value: T) | Failure(error: E)

  /** An error with no value, the model of a Go function returning only `error`. */
  datatype Outcome<+E> = Pass | Fail(error: E)
}
